=== FILE: README.md ===
# Houdini normalized cache — list and layer semantics

A Dafny model of the normalized object cache of the Houdini GraphQL runtime,
at the level its list and layer tests observe it. The model covers:

- the record store: records keyed by `Type:id`, holding scalar fields and
  links, where a link is one id or an ordered sequence of ids;
- the write path for array-valued and linked fields. A field's `update`
  mode (`append`/`prepend`) takes effect only when the write sets
  `applyUpdates`; otherwise the write overwrites;
- the named list registry. Lists such as `All_Users` are registered by a
  subscription, scoped by its `parentID`, and carry the `filters` of the
  field that declared them;
- the list handle from `cache.list(name, parentID?)`: `append`, `prepend`
  and `remove`, each optionally gated by `when({must, must_not})`, and each
  reporting the subscriptions to notify;
- `cache.delete`, which removes a record from the store, from every list
  and connection, and from every subscription;
- the operation directives a written field may carry. `insert` takes a
  position and a `when` gate; `insert`, `remove` and `delete` apply once per
  element of an array;
- the optimistic layer stack: `addLayer` and `deleteLayer` over the base
  store, with reads resolving top layer first.

The implementation module `../cache` is not part of this model. Where
`list.test.ts` and `layers.test.ts` pin a behaviour down, the model follows
them. Where they leave it open, the model makes a choice, and "## Left out"
names each such choice.

Modules:

- `Wrappers`: `Option` and `Result`.
- `Records`: structured record ids and their textual form (`Render`), the
  store, and `cache.id`.
- `Lists`: ordered membership, the `when` gate, and the reference meanings
  of insert, remove and strip.
- `Writes`: the `update`/`applyUpdates` combination rules and field writes.
- `Layers`: the layer stack and read resolution.
- `Cache`: the registry, subscriptions, the list handle, delete and layer
  management.
- `Operations`: operation directives and `cache.write` over a batch of
  field writes.
- `Scenarios`: the tests' concrete cases, derived from the general
  contracts.

A subscription is a number. A notification is the set of subscriptions
whose setter a call invokes: exactly those with a dependency whose observed
value (layer-resolved field, base link) changed. `Cache.WellFormed` is the
invariant that every subscriber of a registered list depends on the link
holding the list, so that a change of the link re-notifies them. The value a list
subscriber is handed is `Cache.Members` of the list.

## Model

| member | source | states |
|---|---|---|
| Lists.MustGate | packages/houdini/runtime/cache/tests/list.test.ts:1006-1035 | `when({must: {k: v}})` lets a mutation through iff the list's stored filters map k to v |
| Lists.MustNotGate | packages/houdini/runtime/cache/tests/list.test.ts:818-847 | `when({must_not: {k: v}})` lets a mutation through iff the stored filters do not map k to v |
| Lists.InsertMembers | packages/houdini/runtime/cache/tests/list.test.ts:195-218 | inserting an entry (plain id or edge) puts its member at the head or tail of the members, the others keeping their order |
| Lists.UnlinkMembers | packages/houdini/runtime/cache/tests/list.test.ts:402-434 | unlinking a member's entries (its edges, in a connection) removes exactly that member from the member sequence, order otherwise kept |
| Lists.StripMembers | packages/houdini/runtime/cache/tests/list.test.ts:1374-1392 | stripping every reference to a record leaves it a member of no list or connection and adds no member |
| Lists.Kept | packages/houdini/runtime/cache/tests/list.test.ts:641-746 | an applied update keeps exactly the stored entries whose member the incoming batch does not carry; the incoming entry overwrites the stored one |
| Lists.KeptAllNew | packages/houdini/runtime/cache/tests/list.test.ts:2516-2560 | when no stored member comes in again, every stored entry is kept |
| Lists.KeptCounts | packages/houdini/runtime/cache/tests/list.test.ts:641-746 | a stored member the batch does not carry keeps its multiplicity, and one the batch carries is gone from the kept entries |
| Lists.KeptMembers | packages/houdini/runtime/cache/tests/list.test.ts:641-746 | a member survives in the kept entries iff it was stored and the batch does not carry it |
| Lists.KeptSingle | packages/houdini/runtime/cache/tests/list.test.ts:641-746 | a batch carrying the single member m keeps exactly the entries that unlinking m keeps |
| Writes.CombineOverwrites | packages/houdini/runtime/cache/tests/list.test.ts:2403-2438 | without `applyUpdates`, or with no update mode, the incoming linked list replaces the stored one outright |
| Writes.CombineMembers | packages/houdini/runtime/cache/tests/list.test.ts:85-129 | the members after an applied update are the kept stored members followed (`append`) or preceded (`prepend`) by the incoming members |
| Writes.CombineKeepsIncoming | packages/houdini/runtime/cache/tests/list.test.ts:641-746 | an applied `append` ends with the whole incoming batch and an applied `prepend` starts with it |
| Writes.CombineMembership | packages/houdini/runtime/cache/tests/list.test.ts:641-746 | a record is a member after an applied update iff it was stored or comes in |
| Writes.CombineNoDuplicates | packages/houdini/runtime/cache/tests/list.test.ts:641-746 | after an applied update an incoming member occurs as often as in the batch, so a member already stored is not doubled; any other member keeps its stored multiplicity |
| Writes.CombineAllNew | packages/houdini/runtime/cache/tests/list.test.ts:2516-2560 | when every incoming member is new, an applied update is exactly the concatenation of the two batches, in the mode's order |
| Writes.WriteField | packages/houdini/runtime/cache/tests/list.test.ts:2679-2699 | a scalar array is overwritten unless `applyUpdates` is set. Then `prepend` puts the new items first and `append` puts them last. No other field changes, and no link changes |
| Writes.WriteLink | packages/houdini/runtime/cache/tests/layers.test.ts:32-40 | a single link write makes the link point at exactly the target and changes no other link or field |
| Writes.WriteList | packages/houdini/runtime/cache/tests/list.test.ts:2516-2560 | a linked-list write stores the update combination of the stored and incoming lists and changes no other link or field |
| Writes.EdgesFor | packages/houdini/runtime/cache/tests/list.test.ts:364-390 | the edges written for a connection wrap exactly the written nodes, in order, and all belong to that connection |
| Writes.WriteConnection | packages/houdini/runtime/cache/tests/list.test.ts:364-390 | a connection write stores the update combination of the edge lists and keeps an edge record for every stored edge. No field changes, and no link changes except the edges and the node links of edges |
| Writes.ConnectionOverwrites | packages/houdini/runtime/cache/tests/list.test.ts:364-390 | without `applyUpdates` the connection's members become exactly the written nodes |
| Layers.ResolveFallsThrough | packages/houdini/runtime/cache/tests/layers.test.ts:57-62 | a slot no layer holds reads from the base store |
| Layers.ResolveBase | packages/houdini/runtime/cache/tests/layers.test.ts:57-62 | a read through the layers depends on the base store only through the base value of that slot |
| Layers.ResolveTopmost | packages/houdini/runtime/cache/tests/layers.test.ts:57-62 | a read answers with the value of the topmost layer holding the slot |
| Layers.UnstackAbsent | packages/houdini/runtime/cache/tests/layers.test.ts:65-73 | removing a handle no layer carries leaves the stack as it is |
| Layers.UnstackUntouched | packages/houdini/runtime/cache/tests/layers.test.ts:65-73 | removing a layer, wherever it sits, changes no read of a slot that layer did not hold |
| Layers.UnstackResolves | packages/houdini/runtime/cache/tests/layers.test.ts:65-73 | removing a layer keeps the others in their order: every read of the remaining stack equals the read that skips the removed layer (`ResolveSkipping`) |
| Layers.Push | packages/houdini/runtime/cache/tests/layers.test.ts:43-54 | `addLayer` returns a handle no existing layer carries. The new layer's values win every read of their slots, and all other reads are unchanged, whatever the base store |
| Layers.Drop | packages/houdini/runtime/cache/tests/layers.test.ts:65-73 | `deleteLayer` keeps exactly the layers with another handle, and every read of the remaining stack answers with the topmost other layer holding the slot, else the base store |
| Layers.PushDropRestores | packages/houdini/runtime/cache/tests/layers.test.ts:43-73 | dropping the layer a push returned gives back the pre-push stack; only the handle counter has moved |
| Layers.DropKeepsOrder | packages/houdini/runtime/cache/tests/layers.test.ts:43-73 | of two layers pushed on one slot, dropping the lower leaves the upper value, and dropping the upper uncovers the lower value rather than the base store |
| Records.Identify | packages/houdini/runtime/cache/tests/list.test.ts:1270-1276 | the id of a record written with `data` exists exactly when the data's `id` holds a string, number or boolean, and the id is the entity of that type keyed by the value's text |
| Records.NumericKeyIdentifies | packages/houdini/runtime/cache/tests/list.test.ts:1270-1276 | a numeric `id` 3 identifies the same entity as the string "3", -12 gives key "-12", and a null `id` identifies nothing |
| Records.IntKeysDistinct | packages/houdini/runtime/cache/tests/list.test.ts:1270-1276 | two numeric keys identify the same entity only when they are equal |
| Records.NatToStringInjective | packages/houdini/runtime/cache/tests/list.test.ts:434 | decimal text tells natural numbers apart, so edge indices and numeric keys never collide |
| Cache.Lookup | packages/houdini/runtime/cache/tests/list.test.ts:1484 | a handle resolves iff a list was registered under that name and parent; otherwise the result is an unknown-list error |
| Cache.Subscribe | packages/houdini/runtime/cache/tests/list.test.ts:1421-1447 | a subscription whose selection declares a list registers it under its name and parent with the declaration's record, field, kind, type, filters and read fields. Its subscribers are the earlier ones plus this one. It depends on the list's link and on every current member's read fields, no other list, record or layer changes, and the invariant is kept |
| Cache.LinkMember | packages/houdini/runtime/cache/tests/list.test.ts:522-553 | linking puts the member at the requested end: the link's entries are the old ones with the member (in a connection, a new edge indexed by the old length) added at that end, so the link changes. No field changes, no other link of a record outside the new edge changes, and the list's subscribers start watching the new member |
| Cache.UnlinkMember | packages/houdini/runtime/cache/tests/list.test.ts:402-434 | unlinking removes exactly that member and deletes the edge records that wrapped it. The list's subscribers stop watching the fields the list reads of it, unless such a field holds a registered list. Every other field keeps its subscribers, the member's record stays, and the invariant is kept |
| Cache.DeleteRecord | packages/houdini/runtime/cache/tests/list.test.ts:1374-1392 | delete keeps exactly the records that neither are nor wrap the deleted one. It leaves the record a member of no list and adds no member. Nobody watches it afterwards, others keep their subscribers, and the invariant is kept unless the record holds a registered list |
| Cache.Add | packages/houdini/runtime/cache/tests/list.test.ts:522-553 | an unknown list is an error. A failed gate, or data without an identifying `id`, is a no-op that notifies nobody. Otherwise the data is written, with `__typename` set to the list's type when the data has none, and no other field changes. The member is linked at the requested end (a new edge in a connection), the list's subscribers start watching its read fields and are notified, and the invariant is kept |
| Cache.NotifiesListSubscribers | packages/houdini/runtime/cache/tests/list.test.ts:204-218 | when the link holding a list changes, every subscriber of the list is notified |
| Cache.MembersChangeNotifies | packages/houdini/runtime/cache/tests/list.test.ts:1194-1199 | when a list's members change, every subscriber of the list is notified |
| Cache.ListAppend | packages/houdini/runtime/cache/tests/list.test.ts:195-218 | `append` puts the new member after the existing ones |
| Cache.ListPrepend | packages/houdini/runtime/cache/tests/list.test.ts:284-307 | `prepend` puts the new member before the existing ones |
| Cache.Remove | packages/houdini/runtime/cache/tests/list.test.ts:402-434 | errors, gate and data without `id` as for `Add`. Otherwise the member leaves the list but its record stays, and in a connection the edge records that wrapped it are deleted. The list's subscribers stop watching the fields the list reads of it, and every other field keeps its subscribers. No list registration changes, no dependency is added, the list's subscribers are notified, and the invariant is kept |
| Cache.Delete | packages/houdini/runtime/cache/tests/list.test.ts:1270-1286 | after `cache.delete` the record is gone, is in no list, and has no subscriber. No list gains a member, the registry is unchanged, every list that held it notifies its subscribers, and the invariant is kept unless the record holds a registered list |
| Cache.LayerValues | packages/houdini/runtime/cache/tests/layers.test.ts:43-54 | the layer written by `addLayer({parentID, data})` holds exactly the data's fields of that record |
| Cache.AddLayer | packages/houdini/runtime/cache/tests/layers.test.ts:43-62 | `addLayer` on any cache with a sound stack keeps the stack sound, keeps the invariant when it held, and leaves the base store, lists and subscriptions untouched. Reads of the written fields give the layer's values, and every other read is unchanged |
| Cache.DeleteLayer | packages/houdini/runtime/cache/tests/layers.test.ts:65-73 | `deleteLayer` on any cache with a sound stack removes exactly the layers with that handle, leaves the base store untouched and keeps the invariant when it held. Every read then answers with the topmost remaining layer holding the slot, else the base store, so reads of slots that layer did not hold are unchanged |
| Cache.DeleteLayerRestores | packages/houdini/runtime/cache/tests/layers.test.ts:32-73 | on any cache with a sound stack, deleting the layer `addLayer` returned restores every read to its pre-layer value |
| Cache.DeleteLayerNotifiesTouched | packages/houdini/runtime/cache/tests/layers.test.ts:65-73 | on any cache with a sound stack, deleting a layer notifies only subscribers of slots that layer held |
| Operations.ResolveParent | packages/houdini/runtime/cache/tests/list.test.ts:1460-1466 | an operation's `parentID` is absent, a literal id, or a bound variable. An unbound variable is an error |
| Operations.EntityIds | packages/houdini/runtime/cache/tests/list.test.ts:1545-1574 | an operation applies to one entity per element of the written data, in order |
| Operations.Placement | packages/houdini/runtime/cache/tests/list.test.ts:1453-1484 | an `insert` goes at the head exactly when its position is `first`; without a position it goes at the tail |
| Operations.InsertAll | packages/houdini/runtime/cache/tests/list.test.ts:1545-1574 | inserting an array keeps the registry, the layers and every dependency, and keeps the invariant |
| Operations.InsertAllMembers | packages/houdini/runtime/cache/tests/list.test.ts:1545-1574 | inserting an array at the tail appends the elements in order; inserting at the head puts them in front in reverse |
| Operations.InsertAllLast | packages/houdini/runtime/cache/tests/list.test.ts:1545-1574 | inserting an array at the tail, one element at a time, appends the elements in array order |
| Operations.InsertAllFirst | packages/houdini/runtime/cache/tests/list.test.ts:1862-1896 | inserting an array at the head, one element at a time, puts the elements in front in reverse array order |
| Operations.RemoveAllMembers | packages/houdini/runtime/cache/tests/list.test.ts:2082-2111 | after a `remove` of an array, a record is a member iff it was one and is not in the array |
| Operations.RemoveAll | packages/houdini/runtime/cache/tests/list.test.ts:2082-2111 | removing an array keeps the registry and the layers, adds no dependency, and keeps the invariant |
| Operations.RemoveAllUnsubscribes | packages/houdini/runtime/cache/tests/list.test.ts:2082-2111 | after a `remove` of an array, the list's subscribers no longer watch the fields the list reads of the removed records, and every other field of a non-edge record keeps its subscribers |
| Operations.DeleteAllRecords | packages/houdini/runtime/cache/tests/list.test.ts:2295-2325 | a `delete` of an id array removes every one of those records and adds none |
| Operations.DeleteAllMembers | packages/houdini/runtime/cache/tests/list.test.ts:2295-2325 | after a `delete` of an id array, none of them is a member of any list and no list gained a member |
| Operations.DeleteAllUnsubscribes | packages/houdini/runtime/cache/tests/list.test.ts:2295-2325 | after a `delete` of an id array, nothing watches any of them and no subscription was added |
| Operations.DeleteAll | packages/houdini/runtime/cache/tests/list.test.ts:2295-2325 | deleting an id array keeps the registry and the layers, and keeps the invariant when none of the ids holds a registered list |
| Operations.Target | packages/houdini/runtime/cache/tests/list.test.ts:1460-1466 | an operation has a target exactly when its `parentID` resolves and a list of that name is registered under the resolved parent, and the target is that list |
| Operations.TouchedByConcat | packages/houdini/runtime/cache/tests/list.test.ts:1453-1484 | a slot is touched by two batches run in sequence exactly when one of them touches it |
| Operations.ApplyOperation | packages/houdini/runtime/cache/tests/list.test.ts:1453-1484 | `delete` removes the records everywhere and drops their subscriptions. An unbound parent or unknown list is an error, and a failing `when` is a no-op. Otherwise `insert` appends in order (the default) or prepends reversed and adds no dependency, and `remove` drops exactly the listed members and the subscriptions to their read fields. An `insert` or `remove` changes no field or link of a non-edge record except the target list's link. The registry and layers never change, and the invariant is kept unless a `delete` removes a list holder |
| Operations.Apply | packages/houdini/runtime/cache/tests/list.test.ts:2516-2560 | a field write other than an operation always succeeds and keeps the dependencies. No write changes the registry or the layers, a slot the write does not touch keeps its field and link, and the invariant is kept. An `insert` or `remove` touches only its target list's link and edge records |
| Operations.Run | packages/houdini/runtime/cache/tests/list.test.ts:2516-2560 | a batch without operations succeeds and keeps the dependencies. The registry and layers never change, a slot no write of the batch touches keeps its field and link, and the invariant is kept unless a `delete` removes a list holder |
| Operations.RunLastWrite | packages/houdini/runtime/cache/tests/list.test.ts:641-746 | a scalar replaced, or a single link written, by a write no later write of the batch touches holds the written value afterwards |
| Operations.ChangedSlotsOnly | packages/houdini/runtime/cache/tests/layers.test.ts:57-62 | with the layers unchanged, every notified subscription depends on a slot whose field or link changed |
| Operations.Write | packages/houdini/runtime/cache/tests/list.test.ts:1453-1484 | `cache.write` fails iff the batch fails. Every subscription with a dependency whose observed value changed is notified, and only subscriptions depending on a slot some write of the batch touched are. Under the invariant, a list whose link or members changed notifies all its subscribers, and the invariant is kept unless a `delete` removes a list holder |
| Scenarios.PrependLinkedListUpdate | packages/houdini/runtime/cache/tests/list.test.ts:85-129 | an applied `prepend` of [4,5] over [2,3] gives [4,5,2,3] |
| Scenarios.AppendLinkedListUpdate | packages/houdini/runtime/cache/tests/list.test.ts:2516-2560 | an applied `append` of [4,5] over [2,3] gives [2,3,4,5] |
| Scenarios.DisabledLinkedListUpdate | packages/houdini/runtime/cache/tests/list.test.ts:2403-2438 | without `applyUpdates`, [3,4] over [2,3] gives [3,4] |
| Scenarios.ScalarArrayUpdates | packages/houdini/runtime/cache/tests/list.test.ts:2610-2629 | [2] over [1] gives [2] without `applyUpdates`, [2,1] with `prepend` and [1,2] with `append` |
| Scenarios.AppendInList | packages/houdini/runtime/cache/tests/list.test.ts:195-218 | appending mary to [jane] gives [jane, mary] and notifies the subscriber |
| Scenarios.PrependInList | packages/houdini/runtime/cache/tests/list.test.ts:284-307 | prepending mary to [jane] gives [mary, jane] and notifies the subscriber |
| Scenarios.AppendInConnection | packages/houdini/runtime/cache/tests/list.test.ts:522-553 | appending to a connection gives nodes [jane, mary] and notifies the subscriber |
| Scenarios.MustNotPositive | packages/houdini/runtime/cache/tests/list.test.ts:818-847 | `must_not: {foo: 'not-bar'}` against filter `foo: 'bar'` lets the prepend through |
| Scenarios.MustNotNegative | packages/houdini/runtime/cache/tests/list.test.ts:919-934 | `must_not: {foo: 'bar'}` makes the prepend a no-op that notifies nobody |
| Scenarios.MustPositive | packages/houdini/runtime/cache/tests/list.test.ts:1006-1035 | `must: {foo: 'bar'}` lets the prepend through |
| Scenarios.MustNegative | packages/houdini/runtime/cache/tests/list.test.ts:1107-1122 | `must: {foo: 'not-bar'}` makes the prepend a no-op that notifies nobody |
| Scenarios.RemoveFromList | packages/houdini/runtime/cache/tests/list.test.ts:1188-1204 | removing jane empties the list, notifies the subscriber, and leaves jane's `firstName` with no subscriber |
| Scenarios.JaneEdgeName | packages/houdini/runtime/cache/tests/list.test.ts:434 | jane's edge in user 1's `friends` connection is named `User:1.friends.edges[0]#User:2` |
| Scenarios.RemoveHead | packages/houdini/runtime/cache/tests/list.test.ts:402-424 | removing the first member of a list whose other members differ from it leaves exactly the others and notifies the list's subscribers |
| Scenarios.RemoveCleansUp | packages/houdini/runtime/cache/tests/list.test.ts:426-434 | when only the list's subscriptions hold dependencies, a removed member is watched by nobody, and the edge that wrapped it in a connection is deleted |
| Scenarios.RemoveKeeps | packages/houdini/runtime/cache/tests/list.test.ts:430-432 | a record other than the removed member keeps its only subscriber |
| Scenarios.RemoveFromConnection | packages/houdini/runtime/cache/tests/list.test.ts:402-424 | removing jane from the connection leaves [mary] and notifies the subscriber |
| Scenarios.RemoveFromConnectionCleansUp | packages/houdini/runtime/cache/tests/list.test.ts:426-434 | afterwards jane's `firstName` has no subscriber and her edge record is gone |
| Scenarios.RemoveFromConnectionKeepsOthers | packages/houdini/runtime/cache/tests/list.test.ts:430-432 | mary's `firstName` keeps its one subscriber |
| Scenarios.DeleteOnly | packages/houdini/runtime/cache/tests/list.test.ts:1270-1286 | deleting the only member of a list removes its record, empties the list and notifies the list's subscribers |
| Scenarios.DeleteNode | packages/houdini/runtime/cache/tests/list.test.ts:1270-1286 | deleting user 2 removes the record, empties the list and notifies the subscriber |
| Scenarios.DeleteNodeFromConnection | packages/houdini/runtime/cache/tests/list.test.ts:1374-1392 | the same for a connection, which is left with no edges |
| Scenarios.WriteListOperation | packages/houdini/runtime/cache/tests/list.test.ts:1453-1484 | a write of new users whose `newUser` field carries an `insert` or `remove` on the list under user 1, held apart from that field, succeeds. A failed `when` leaves the list as it was, `last` appends the users in order, `first` prepends them reversed, and `remove` drops exactly them and their subscriptions |
| Scenarios.RunThen | packages/houdini/runtime/cache/tests/list.test.ts:1452-1481 | running a batch in two parts is running the first part and then, if it succeeds, the second on its result |
| Scenarios.RunNewUsers | packages/houdini/runtime/cache/tests/list.test.ts:1452-1481 | the write of new users stores their `id`s and the root link to them without touching the registry, the dependencies, any other link or the members of any list held elsewhere, and then applies the operation |
| Scenarios.WriteStoresCarrier | packages/houdini/runtime/cache/tests/list.test.ts:1452-1481 | the same write leaves the root `newUser` link pointing at the new users |
| Scenarios.ListOperationLeavesOthers | packages/houdini/runtime/cache/tests/list.test.ts:1452-1481 | the same write stores the root `newUser` link to the new users and changes no non-`id` field and no other link of a non-edge record except the list's own |
| Scenarios.WriteDeleteOperation | packages/houdini/runtime/cache/tests/list.test.ts:2187-2216 | a write of new users under the root `deleteUser` field whose `id` carries `delete` removes their records from the store and from every list, and adds no member |
| Scenarios.InsertedBy | packages/houdini/runtime/cache/tests/list.test.ts:1453-1484 | a passing `insert` leaves exactly the old members followed by the new users, or the new users reversed followed by the old members |
| Scenarios.InsertOperation | packages/houdini/runtime/cache/tests/list.test.ts:1453-1484 | an `insert` operation under `User:1` adds the new user to the empty list |
| Scenarios.InsertOperationFromList | packages/houdini/runtime/cache/tests/list.test.ts:1545-1574 | an `insert` of two users adds both, in order |
| Scenarios.InsertWhenBlocked | packages/houdini/runtime/cache/tests/list.test.ts:1641-1677 | an `insert` whose `must` fails leaves the list empty |
| Scenarios.PrependWhenBlocked | packages/houdini/runtime/cache/tests/list.test.ts:1744-1781 | the same with `position: 'first'` |
| Scenarios.PrependOperation | packages/houdini/runtime/cache/tests/list.test.ts:1862-1896 | `position: 'first'` gives ['3', '2'] |
| Scenarios.EmptiedBy | packages/houdini/runtime/cache/tests/list.test.ts:1972-2003 | a passing `remove` on a list held apart from `newUser`, or a `delete`, naming every member of the list leaves it empty |
| Scenarios.UnwatchedBy | packages/houdini/runtime/cache/tests/list.test.ts:2082-2111 | when only the list's subscriptions hold dependencies, the users a passing `remove` names are watched by nobody afterwards |
| Scenarios.RemoveOperation | packages/houdini/runtime/cache/tests/list.test.ts:1972-2003 | a `remove` operation empties the list [jane] |
| Scenarios.RemoveOperationFromList | packages/houdini/runtime/cache/tests/list.test.ts:2082-2111 | removing the array [2, 3] empties the list |
| Scenarios.RemoveOperationFromListUnwatches | packages/houdini/runtime/cache/tests/list.test.ts:2082-2111 | after that removal user 2's `firstName` has no subscriber |
| Scenarios.DeleteOperation | packages/houdini/runtime/cache/tests/list.test.ts:2187-2216 | a `delete` operation removes user 2's record and empties the list |
| Scenarios.DeleteOperationFromList | packages/houdini/runtime/cache/tests/list.test.ts:2295-2325 | deleting the ids [2, 3] removes both records and empties the list |
| Scenarios.AppendAgain | packages/houdini/runtime/cache/tests/list.test.ts:724-746 | an applied `append` bringing back the last member of a two-member connection leaves the members as they were |
| Scenarios.ConnectionAppend | packages/houdini/runtime/cache/tests/list.test.ts:522-553 | `list.append` on a well-formed connection with data carrying no `__typename` adds an edge indexed by the old length at the tail, stores the list's type as the member's `__typename`, and keeps the invariant |
| Scenarios.AppendedMary | packages/houdini/runtime/cache/tests/list.test.ts:641-647 | after `list.append` of mary the connection holds jane's edge 0 and mary's edge 1, mary's `__typename` reads User, and the invariant holds |
| Scenarios.MaryEdgeKept | packages/houdini/runtime/cache/tests/list.test.ts:724-746 | of jane's and mary's edges, a batch bringing mary back keeps exactly jane's |
| Scenarios.MaryEdgeReplaced | packages/houdini/runtime/cache/tests/list.test.ts:650-746 | running the update batch on jane's and mary's edges leaves jane's edge 0 followed by the batch's edge 0 for mary |
| Scenarios.MaryTyped | packages/houdini/runtime/cache/tests/list.test.ts:650-670 | after the update batch mary's `__typename` reads User |
| Scenarios.TypenameLastWritten | packages/houdini/runtime/cache/tests/list.test.ts:650-670 | no write after mary's `__typename` in the update batch touches that field |
| Scenarios.UpdateBatch | packages/houdini/runtime/cache/tests/list.test.ts:650-722 | a batch of scalars and an applied connection `append` combines the connection as an update and notifies a dependency on a scalar it gives a new value |
| Scenarios.UpdateAfterAppend | packages/houdini/runtime/cache/tests/list.test.ts:679-746 | on a well-formed cache whose connection holds jane's edge and mary's appended edge, the update batch replaces mary's edge, so the link changes while the members stay [jane, mary]; every subscriber of the list is notified and mary's `__typename` reads User |
| Scenarios.AppendUpdateAfterHandle | packages/houdini/runtime/cache/tests/list.test.ts:641-746 | after `list.append` added mary, a `cache.write` with an applied `append` carrying mary again leaves the connection at [jane, mary] and notifies the subscriber |
| Scenarios.LayerOverridesViewer | packages/houdini/runtime/cache/tests/layers.test.ts:32-73 | with a layer setting `firstName: Alex`, `viewer.firstName` reads Alex and `viewer.id` reads 1. After `deleteLayer` it reads John again, and `id` is still 1 |
| Scenarios.LayerAfterHolderDeleted | packages/houdini/runtime/cache/tests/layers.test.ts:32-73 | after deleting the record that holds a registered list the invariant is gone, yet a layer still overrides a read and deleting it restores every read |

## Left out

- The selection walker is not modelled as a traversal of a selection tree. A `cache.write` is given as the batch of field writes the walk would produce (`Operations.FieldWrite`). A read is given as `Cache.Read`, `Cache.ReadThrough` and `Cache.Members`, not as a value tree.
- Notifications are the set of subscriptions whose setter is called, not the value tree the setter receives. What a list subscriber receives is represented by `Cache.Members`.
- Operations.Write: notifies on a change of observed value. A dependency set maintained by re-reading each subscription's selection after the write is not modelled, so a write that moves a list notifies the list's subscribers through their dependency on the list's link.
- Field arguments in storage keys and the configurable key field are not modelled, because no test uses them. The key field is `id`.
- Abstract types (`abstract`, `__typename` dispatch) are not modelled; `__typename` is an ordinary field.
- Cache.Add: when the data carries no `__typename`, the member's record gets the list's type there, as the connection test shows for its abstract nodes. The model does this for plain lists as well, whose selections in the tests do not read `__typename`.
- Records.Identify: a number or boolean `id` is keyed by its text, as a template string would render it. A null or array `id` identifies nothing, as if the key were absent. No test writes such an `id`.
- Operations.Run: a `delete` directive counts as touching every slot, since it strips its records from every link. So Run's frame, and the soundness clause of Operations.Write, say nothing about a batch carrying a `delete`.
- Scenarios.WriteListOperation: this lemma and Scenarios.WriteStoresCarrier, Scenarios.ListOperationLeavesOthers, Scenarios.InsertedBy, Scenarios.UnwatchedBy and the `remove` case of Scenarios.EmptiedBy require the target list not to be stored in the root `newUser` field the write fills (`Scenarios.Apart`). If it were, the root link write would replace the list before the directive acts on it. The tests hold the list on user 1.
- Scenarios.NewUsers: the batch writes the root link before it applies the directive. The tests do not observe the order.
- Operations.ApplyOperation: a `delete` directive ignores `when` and the list name; it deletes its records whatever the gate says. No test gates a `delete`.
- Layers hold scalar values only. Layers holding linked records appear only as an unwritten test (`test.todo`) with unspecified behaviour. The layer "unset" marker and the `optimistic` tag are not modelled either.
- Layers are not consulted for list membership, delete or subscriptions: every list operation and `cache.delete` acts on the base store.
- `remove` with a predicate instead of an identity is not modelled; the tests only remove by `id`.
- Cache.DeleteRecord: strips the deleted record from every link in the store, not only from registered lists. The tests only observe registered lists.
- Cache.Delete: the handle's `cache.delete(type, id)` type argument is not modelled separately; the id already carries the type.
- De-duplication on an applied `append`/`prepend` update is by member identity (node identity for a connection), for plain lists as well as connections. The incoming entry overwrites the stored entry of the same member, so a stored member that comes in again moves to the incoming batch's place. The tests pin this down only where the returning member is already last (the update-after-`list.append` test). Scalar arrays are concatenated without de-duplication.
- Cache.Add: data without an `id` is a no-op that notifies nobody, since the entity cannot be identified and there is nothing to link. No test passes such data. Cache.Remove does the same.
- Operations.ResolveParent: an operation whose `parentID` names a variable the write does not bind is an error (`UnboundVariable`). No test writes such an operation.
- Operations.Run: a batch stops at its first failing write and returns only the error. The implementation writes into the store in place, so there the writes before the failing one stay applied. Operations.Write reports the same error and no cache. No test writes a failing batch.
- Cache.Delete: keeps the invariant only when the deleted record holds no registered list. Deleting a list holder also drops the subscribers' dependency on the list's link, while the registration stays. Operations.ApplyOperation, Operations.Run and Operations.Write carry the same condition for a `delete` directive.
- Connection edges carry only their node. The `cursor` field an edge may hold is not modelled, and the update batch of the update-after-`list.append` scenario omits it.
- `Records.Render` gives the root record the text `_ROOT_`; the root id's actual text is not observable in the tests.
- Setter callbacks, the unsubscribe handle and the in-order resolution of concurrent network requests are not modelled. They belong to the subscription and transport plumbing, not to the cache's state.

=== FILE: cache.dfy ===
/** The cache: base record store, optimistic layer stack, the registry of
    named lists and the subscription dependencies; the list handle API,
    record deletion and layer management. */
module Cache {
  import opened Wrappers
  import opened Records
  import opened Layers
  import opened Lists
  import opened Writes

  /** Contract violations the cache reports to its caller. */
  datatype Error =
    | UnknownList(name: string)        // no list registered under this name and parent
    | UnboundVariable(name: string)    // a `parentID` variable the write does not bind

  /** A list is registered under its name, scoped by the parent id the
      registering subscription was given (none for a root subscription). */
  datatype ListKey = ListKey(name: string, parent: Option<Id>)

  /** A registered list: the record and key whose link holds its entries,
      whether it is a connection (entries are edges wrapping the members), the
      type of its members, the filter values of the field that declared it,
      the fields its subscribers read on each member, and those subscribers. */
  datatype ListInfo = ListInfo(
    record: Id,
    key: string,
    connection: bool,
    typename: string,
    filters: map<string, Value>,
    fields: set<string>,
    subscribers: set<nat>)

  /** The `list` declaration a subscription's selection carries. */
  datatype ListDecl = ListDecl(
    name: string,
    record: Id,
    key: string,
    connection: bool,
    typename: string,
    filters: map<string, Value>,
    fields: set<string>)

  /** Subscription `sub` depends on field or link `key` of `record`. */
  datatype Dep = Dep(record: Id, key: string, sub: nat)

  datatype Cache = Cache(records: Store, stack: Stack, lists: map<ListKey, ListInfo>, deps: set<Dep>)

  /** The state after a call and the subscriptions whose setter it invokes. */
  datatype Outcome = Outcome(cache: Cache, notified: set<nat>)

  /** A handle from `cache.list(name, parentID?)`, with the gate `when` set. */
  datatype Handle = Handle(name: string, parent: Option<Id>, gate: Gate) {
    /** `handle.when({must, must_not})` */
    function When(g: Gate): Handle {
      this.(gate := g)
    }
  }

  const Empty: Cache := Cache(map[], EmptyStack, map[], {})

  /** Every layer handle is fresh below the counter, and every subscriber of
      a list depends on the link holding that list's entries. */
  predicate WellFormed(c: Cache) {
    && Layers.Valid(c.stack)
    && forall k, s :: k in c.lists && s in c.lists[k].subscribers ==> Dep(c.lists[k].record, c.lists[k].key, s) in c.deps
  }

  function ListHandle(name: string, parent: Option<Id>): Handle {
    Handle(name, parent, Always)
  }

  /** A field as a read sees it: through the layers, top first, then the base store. */
  function Read(c: Cache, id: Id, key: string): Option<Value> {
    Resolve(c.stack.layers, c.records, Slot(id, key))
  }

  /** A field of the record a single link points to (`viewer.firstName`). */
  function ReadThrough(c: Cache, id: Id, link: string, key: string): Option<Value> {
    match LinkOf(c.records, id, link)
    case Some(One(t)) => Read(c, t, key)
    case _ => None
  }

  /** The members of a list, in order (`[...cache.list(name)]`). */
  function Members(c: Cache, info: ListInfo): seq<Id> {
    MembersOf(LinksAt(c.records, info.record, info.key), info.connection)
  }

  /** `record.getSubscribers(key)` */
  function Subscribers(c: Cache, id: Id, key: string): set<nat> {
    set d | d in c.deps && d.record == id && d.key == key :: d.sub
  }

  /** What a subscriber depending on a slot observes of it. */
  function Observed(c: Cache, slot: Slot): (Option<Value>, Option<Link>) {
    (Resolve(c.stack.layers, c.records, slot), LinkOf(c.records, slot.record, slot.key))
  }

  /** The subscriptions a change from `before` to `after` must re-notify:
      exactly those with a dependency whose observed value changed. */
  function Affected(before: Cache, after: Cache, deps: set<Dep>): set<nat> {
    set d | d in deps && Observed(before, Slot(d.record, d.key)) != Observed(after, Slot(d.record, d.key)) :: d.sub
  }

  /** Resolves a handle to its registered list. */
  function Lookup(c: Cache, name: string, parent: Option<Id>): (r: Result<ListInfo, Error>)
    ensures r.Ok? <==> ListKey(name, parent) in c.lists
    ensures r.Ok? ==> r.value == c.lists[ListKey(name, parent)]
    ensures r.Err? ==> r.error == UnknownList(name)
  {
    if ListKey(name, parent) in c.lists then Ok(c.lists[ListKey(name, parent)]) else Err(UnknownList(name))
  }

  /** The slots holding the entries of the registered lists. */
  function ListSlots(c: Cache): set<Slot> {
    set k | k in c.lists :: Slot(c.lists[k].record, c.lists[k].key)
  }

  /** The dependencies the subscribers of a list take on a member's fields. */
  function MemberDeps(subs: set<nat>, fields: set<string>, x: Id): set<Dep> {
    set s, f | s in subs && f in fields :: Dep(x, f, s)
  }

  /** `subscribe` with a selection declaring a list: registers (or refreshes)
      the list under its name and the subscription's parent, and records the
      subscription's dependencies on the list's link and on the read fields
      of every current member. */
  function Subscribe(c: Cache, sub: nat, parent: Option<Id>, decl: ListDecl): (r: Cache)
    ensures WellFormed(c) ==> WellFormed(r)
    ensures Lookup(r, decl.name, parent).Ok?
    ensures var info := r.lists[ListKey(decl.name, parent)];
      && info == ListInfo(decl.record, decl.key, decl.connection, decl.typename, decl.filters, decl.fields,
                          (if ListKey(decl.name, parent) in c.lists then c.lists[ListKey(decl.name, parent)].subscribers else {}) + {sub})
      && (forall m, f :: m in Members(r, info) && f in decl.fields ==> sub in Subscribers(r, m, f))
      && (forall d :: d in r.deps && d !in c.deps ==> d.sub in info.subscribers)
    ensures forall k :: k in c.lists && k != ListKey(decl.name, parent) ==> k in r.lists && r.lists[k] == c.lists[k]
    ensures r.records == c.records && r.stack == c.stack && c.deps <= r.deps
  {
    var k := ListKey(decl.name, parent);
    var prior := if k in c.lists then c.lists[k].subscribers else {};
    var info := ListInfo(decl.record, decl.key, decl.connection, decl.typename, decl.filters, decl.fields, prior + {sub});
    var members := Members(c, info);
    var own := (set s | s in info.subscribers :: Dep(decl.record, decl.key, s))
             + (set m, f | m in members && f in decl.fields :: Dep(m, f, sub));
    var r := c.(lists := c.lists[k := info], deps := c.deps + own);
    assert forall m, f :: m in Members(r, info) && f in decl.fields ==> Dep(m, f, sub) in r.deps;
    r
  }

  /** Links member `x` into a list at the head or the tail; a connection
      wraps it in a new edge record. The list's subscribers start depending
      on the member's read fields. */
  function LinkMember(c: Cache, info: ListInfo, x: Id, pos: Position): (r: Cache)
    ensures Members(r, info) == Insert(Members(c, info), x, pos)
    ensures var prior := LinksAt(c.records, info.record, info.key);
      LinksAt(r.records, info.record, info.key) == Insert(prior, if info.connection then Edge(info.record, |prior|, x) else x, pos)
    ensures LinkOf(r.records, info.record, info.key) != LinkOf(c.records, info.record, info.key)
    ensures forall i: Id, k :: (i in c.records || !i.Edge?) && (i != info.record || k != info.key) ==> LinkOf(r.records, i, k) == LinkOf(c.records, i, k)
    ensures forall i, k :: FieldOf(r.records, i, k) == FieldOf(c.records, i, k)
    ensures c.records.Keys <= r.records.Keys
    ensures forall s, f :: s in info.subscribers && f in info.fields ==> s in Subscribers(r, x, f)
    ensures r.lists == c.lists && r.stack == c.stack && c.deps <= r.deps
  {
    var prior := LinksAt(c.records, info.record, info.key);
    var e := if info.connection then Edge(info.record, |prior|, x) else x;
    var store := if info.connection && e !in c.records then c.records[e := EdgeRecord(e)] else c.records;
    var entries := Insert(prior, e, pos);
    InsertMembers(prior, e, pos, info.connection);
    var r := c.(records := SetLink(store, info.record, info.key, Many(entries)),
                deps := c.deps + MemberDeps(info.subscribers, info.fields, x));
    assert forall s, f :: s in info.subscribers && f in info.fields ==> Dep(x, f, s) in r.deps;
    r
  }

  /** The edge records of a connection that wrap member `x`. */
  function EdgesOf(entries: seq<Id>, x: Id, connection: bool): set<Id> {
    set e | e in entries && connection && e.Edge? && e.node == x
  }

  /** True when `d` is a dependency a list's subscribers give up once `x`
      leaves the list: one on a field the list reads of `x`, or on an edge
      record that wrapped `x`. A dependency backing a registered list's link
      is never given up. */
  predicate Released(c: Cache, info: ListInfo, x: Id, dropped: set<Id>, d: Dep) {
    && d.sub in info.subscribers
    && Slot(d.record, d.key) !in ListSlots(c)
    && ((d.record == x && d.key in info.fields) || d.record in dropped)
  }

  /** Unlinks member `x` from a list without deleting its record; for a
      connection, also deletes the edge records that wrapped it. The list's
      subscribers stop depending on the fields they read of `x` and on those
      edges; every other dependency stays. */
  function UnlinkMember(c: Cache, info: ListInfo, x: Id): (r: Cache)
    ensures Members(r, info) == Without(Members(c, info), x)
    ensures forall e :: e in EdgesOf(LinksAt(c.records, info.record, info.key), x, info.connection) && e != info.record ==> e !in r.records
    ensures forall s, k :: s in info.subscribers && k in info.fields && Slot(x, k) !in ListSlots(c) ==> s !in Subscribers(r, x, k)
    ensures forall y, k :: (y != x || k !in info.fields) && !(y.Edge? && y.node == x) ==> Subscribers(r, y, k) == Subscribers(c, y, k)
    ensures forall i, k :: i in c.records && i !in EdgesOf(LinksAt(c.records, info.record, info.key), x, info.connection) ==>
              i in r.records && FieldOf(r.records, i, k) == FieldOf(c.records, i, k)
    ensures forall i: Id, k :: !i.Edge? ==> FieldOf(r.records, i, k) == FieldOf(c.records, i, k)
    ensures forall i: Id, k :: !i.Edge? && (i != info.record || k != info.key) ==> LinkOf(r.records, i, k) == LinkOf(c.records, i, k)
    ensures r.lists == c.lists && r.stack == c.stack && r.deps <= c.deps
    ensures WellFormed(c) ==> WellFormed(r)
  {
    var prior := LinksAt(c.records, info.record, info.key);
    var dropped := EdgesOf(prior, x, info.connection);
    UnlinkMembers(prior, x, info.connection);
    var store := SetLink(c.records - dropped, info.record, info.key, Many(Unlink(prior, x, info.connection)));
    var r := c.(records := store, deps := set d | d in c.deps && !Released(c, info, x, dropped, d));
    forall k, s | k in c.lists && s in c.lists[k].subscribers && Dep(c.lists[k].record, c.lists[k].key, s) in c.deps
      ensures Dep(c.lists[k].record, c.lists[k].key, s) in r.deps
    {
      assert Slot(c.lists[k].record, c.lists[k].key) in ListSlots(c);
    }
    r
  }

  /** True when a link is a single reference to `x` (or to an edge of `x`). */
  predicate Dangles(l: Link, x: Id) {
    l.One? && Refers(l.target, x)
  }

  /** A record with every reference to `x` removed from its links. */
  function StripRecord(rec: Record, x: Id): Record {
    Record(rec.fields,
      map k | k in rec.links && !Dangles(rec.links[k], x) ::
        match rec.links[k]
        case One(t) => One(t)
        case Many(ts) => Many(Strip(ts, x)))
  }

  /** True when no registered list is held by `x` or by an edge wrapping it. */
  predicate HoldsNoList(c: Cache, x: Id) {
    forall k :: k in c.lists ==> !Refers(c.lists[k].record, x)
  }

  /** `cache.delete(id)`: removes the record, the edge records wrapping it and
      every reference to it from the links of the other records — so from every
      list and connection — and drops every subscription on it. */
  function DeleteRecord(c: Cache, x: Id): (r: Cache)
    ensures forall i :: i in r.records <==> i in c.records && !Refers(i, x)
    ensures forall i, k :: i in r.records ==> FieldOf(r.records, i, k) == FieldOf(c.records, i, k)
    ensures forall info :: x !in Members(r, info)
    ensures forall info, y :: y in Members(r, info) ==> y in Members(c, info)
    ensures forall k :: Subscribers(r, x, k) == {}
    ensures forall y, k :: !Refers(y, x) ==> Subscribers(r, y, k) == Subscribers(c, y, k)
    ensures forall y, k :: Subscribers(r, y, k) <= Subscribers(c, y, k)
    ensures forall d :: d in c.deps && !Refers(d.record, x) ==> d in r.deps
    ensures r.lists == c.lists && r.stack == c.stack
    ensures WellFormed(c) && HoldsNoList(c, x) ==> WellFormed(r)
  {
    var r := c.(records := map i | i in c.records && !Refers(i, x) :: StripRecord(c.records[i], x),
                deps := set d | d in c.deps && !Refers(d.record, x));
    forall info
      ensures x !in Members(r, info)
      ensures forall y :: y in Members(r, info) ==> y in Members(c, info)
    {
      StripLinksAt(c, r, x, info);
    }
    r
  }

  lemma StripLinksAt(c: Cache, r: Cache, x: Id, info: ListInfo)
    requires r.records == map i | i in c.records && !Refers(i, x) :: StripRecord(c.records[i], x)
    ensures x !in Members(r, info)
    ensures forall y :: y in Members(r, info) ==> y in Members(c, info)
  {
    var id, key, conn := info.record, info.key, info.connection;
    if id in r.records && key in r.records[id].links {
      match c.records[id].links[key]
      case Many(ts) =>
        assert LinksAt(r.records, id, key) == Strip(ts, x);
        StripMembers(ts, x, conn);
      case One(t) =>
        assert LinksAt(r.records, id, key) == [t];
    }
  }

  /** Writes a member's data, with its `__typename` when the data carries
      none, and links it. A failed gate, or data the member cannot be
      identified by, is a no-op with no notification. */
  function Add(c: Cache, h: Handle, data: map<string, Value>, pos: Position): (r: Result<Outcome, Error>)
    ensures ListKey(h.name, h.parent) !in c.lists ==> r == Err(UnknownList(h.name))
    ensures r.Ok? && WellFormed(c) ==> WellFormed(r.value.cache)
    ensures ListKey(h.name, h.parent) in c.lists ==>
      var info := c.lists[ListKey(h.name, h.parent)];
      && (!Passes(h.gate, info.filters) ==> r == Ok(Outcome(c, {})))
      && (Passes(h.gate, info.filters) && Identify(info.typename, data).None? ==> r == Ok(Outcome(c, {})))
      && (Passes(h.gate, info.filters) && Identify(info.typename, data).Some? ==>
            var x := Identify(info.typename, data).value;
            && r.Ok?
            && Members(r.value.cache, info) == Insert(Members(c, info), x, pos)
            && (var prior := LinksAt(c.records, info.record, info.key);
                LinksAt(r.value.cache.records, info.record, info.key)
                == Insert(prior, if info.connection then Edge(info.record, |prior|, x) else x, pos))
            && (forall k :: k in data ==> FieldOf(r.value.cache.records, x, k) == Some(data[k]))
            && (TypenameField !in data ==> FieldOf(r.value.cache.records, x, TypenameField) == Some(Str(info.typename)))
            && (forall i, k :: (i != x || (k !in data && k != TypenameField)) ==>
                  FieldOf(r.value.cache.records, i, k) == FieldOf(c.records, i, k))
            && (forall s, f :: s in info.subscribers && f in info.fields ==> s in Subscribers(r.value.cache, x, f))
            && r.value.cache.lists == c.lists && r.value.cache.stack == c.stack
            && (WellFormed(c) ==> info.subscribers <= r.value.notified))
  {
    var info :- Lookup(c, h.name, h.parent);
    if !Passes(h.gate, info.filters) then Ok(Outcome(c, {}))
    else
      match Identify(info.typename, data)
      case None => Ok(Outcome(c, {}))
      case Some(x) =>
        var c1 := c.(records := SetFields(c.records, x, Typed(data, info.typename)));
        var c2 := LinkMember(c1, info, x, pos);
        NotifiesListSubscribers(c, c2, info);
        Ok(Outcome(c2, Affected(c, c2, c.deps)))
  }

  /** The fields a handle writes on a new member: the given data, with
      `__typename` set to the list's type when the data carries none. */
  function Typed(data: map<string, Value>, typename: string): (r: map<string, Value>)
    ensures r.Keys == data.Keys + {TypenameField}
    ensures forall k :: k in data ==> r[k] == data[k]
    ensures TypenameField !in data ==> r[TypenameField] == Str(typename)
  {
    if TypenameField in data then data else data[TypenameField := Str(typename)]
  }

  /** When the link holding a list's entries changed, every subscriber of the
      list is re-notified. */
  lemma NotifiesListSubscribers(c: Cache, c': Cache, info: ListInfo)
    requires LinkOf(c'.records, info.record, info.key) != LinkOf(c.records, info.record, info.key)
    ensures (forall s :: s in info.subscribers ==> Dep(info.record, info.key, s) in c.deps) ==>
              info.subscribers <= Affected(c, c', c.deps)
  {
    if forall s :: s in info.subscribers ==> Dep(info.record, info.key, s) in c.deps {
      forall s | s in info.subscribers
        ensures s in Affected(c, c', c.deps)
      {
        var d := Dep(info.record, info.key, s);
        assert Observed(c, Slot(d.record, d.key)) != Observed(c', Slot(d.record, d.key));
      }
    }
  }

  /** `list.append(selection, data)`: the new member goes at the tail. */
  function ListAppend(c: Cache, h: Handle, data: map<string, Value>): (r: Result<Outcome, Error>)
    ensures ListKey(h.name, h.parent) in c.lists && Passes(h.gate, c.lists[ListKey(h.name, h.parent)].filters)
            && Identify(c.lists[ListKey(h.name, h.parent)].typename, data).Some? ==>
      r.Ok? && Members(r.value.cache, c.lists[ListKey(h.name, h.parent)])
             == Members(c, c.lists[ListKey(h.name, h.parent)]) + [Identify(c.lists[ListKey(h.name, h.parent)].typename, data).value]
  {
    Add(c, h, data, Last)
  }

  /** `list.prepend(selection, data)`: the new member goes at the head. */
  function ListPrepend(c: Cache, h: Handle, data: map<string, Value>): (r: Result<Outcome, Error>)
    ensures ListKey(h.name, h.parent) in c.lists && Passes(h.gate, c.lists[ListKey(h.name, h.parent)].filters)
            && Identify(c.lists[ListKey(h.name, h.parent)].typename, data).Some? ==>
      r.Ok? && Members(r.value.cache, c.lists[ListKey(h.name, h.parent)])
             == [Identify(c.lists[ListKey(h.name, h.parent)].typename, data).value] + Members(c, c.lists[ListKey(h.name, h.parent)])
  {
    Add(c, h, data, First)
  }

  /** `list.remove(data)`: unlinks the member the data identifies, keeping its
      record. A failed gate, or data without the key, is a no-op. */
  function Remove(c: Cache, h: Handle, data: map<string, Value>): (r: Result<Outcome, Error>)
    ensures ListKey(h.name, h.parent) !in c.lists ==> r == Err(UnknownList(h.name))
    ensures r.Ok? && WellFormed(c) ==> WellFormed(r.value.cache)
    ensures ListKey(h.name, h.parent) in c.lists ==>
      var info := c.lists[ListKey(h.name, h.parent)];
      && (!Passes(h.gate, info.filters) ==> r == Ok(Outcome(c, {})))
      && (Passes(h.gate, info.filters) && Identify(info.typename, data).None? ==> r == Ok(Outcome(c, {})))
      && (Passes(h.gate, info.filters) && Identify(info.typename, data).Some? ==>
            var x := Identify(info.typename, data).value;
            && r.Ok?
            && Members(r.value.cache, info) == Without(Members(c, info), x)
            && (x in c.records ==> x in r.value.cache.records)
            && (forall e :: e in EdgesOf(LinksAt(c.records, info.record, info.key), x, info.connection) && e != info.record ==> e !in r.value.cache.records)
            && (forall s, k :: s in info.subscribers && k in info.fields && Slot(x, k) !in ListSlots(c) ==> s !in Subscribers(r.value.cache, x, k))
            && (forall y, k :: (y != x || k !in info.fields) && !(y.Edge? && y.node == x) ==> Subscribers(r.value.cache, y, k) == Subscribers(c, y, k))
            && r.value.cache.lists == c.lists && r.value.cache.deps <= c.deps
            && (WellFormed(c) && x in Members(c, info) ==> info.subscribers <= r.value.notified))
  {
    var info :- Lookup(c, h.name, h.parent);
    if !Passes(h.gate, info.filters) then Ok(Outcome(c, {}))
    else
      match Identify(info.typename, data)
      case None => Ok(Outcome(c, {}))
      case Some(x) =>
        var c' := UnlinkMember(c, info, x);
        MembersChangeNotifies(c, c', info);
        Ok(Outcome(c', Affected(c, c', c.deps)))
  }

  /** A list whose members changed re-notifies all of its subscribers. */
  lemma MembersChangeNotifies(c: Cache, c': Cache, info: ListInfo)
    ensures Members(c', info) != Members(c, info) && (forall s :: s in info.subscribers ==> Dep(info.record, info.key, s) in c.deps) ==>
              info.subscribers <= Affected(c, c', c.deps)
  {
    if Members(c', info) != Members(c, info) {
      NotifiesListSubscribers(c, c', info);
    }
  }

  /** `cache.delete(id)` with its notifications. */
  function Delete(c: Cache, x: Id): (r: Outcome)
    ensures x !in r.cache.records
    ensures forall k :: k in r.cache.lists ==> x !in Members(r.cache, r.cache.lists[k])
    ensures forall k :: Subscribers(r.cache, x, k) == {}
    ensures forall info, y :: y in Members(r.cache, info) ==> y in Members(c, info)
    ensures r.cache.lists == c.lists
    ensures WellFormed(c) ==> forall k :: k in c.lists && x in Members(c, c.lists[k]) ==> c.lists[k].subscribers <= r.notified
    ensures WellFormed(c) && HoldsNoList(c, x) ==> WellFormed(r.cache)
  {
    var c' := DeleteRecord(c, x);
    forall k | k in c.lists
      ensures WellFormed(c) && x in Members(c, c.lists[k]) ==> c.lists[k].subscribers <= Affected(c, c', c.deps)
    {
      MembersChangeNotifies(c, c', c.lists[k]);
    }
    Outcome(c', Affected(c, c', c.deps))
  }

  /** The sparse layer values a write of `data` on record `parent` makes. */
  function LayerValues(parent: Id, data: map<string, Value>): (m: map<Slot, Value>)
    ensures forall k :: k in data <==> Slot(parent, k) in m
    ensures forall k :: k in data ==> m[Slot(parent, k)] == data[k]
    ensures forall slot :: slot in m ==> slot.record == parent
  {
    map k | k in data :: Slot(parent, k) := data[k]
  }

  /** `addLayer({parentID, selection, data})`: writes `data` into a fresh top
      layer, leaving the base store untouched, and returns the layer's handle. */
  function AddLayer(c: Cache, parent: Id, data: map<string, Value>): (r: (Outcome, nat))
    requires Layers.Valid(c.stack)
    ensures Layers.Valid(r.0.cache.stack) && (WellFormed(c) ==> WellFormed(r.0.cache))
    ensures r.0.cache.records == c.records && r.0.cache.lists == c.lists && r.0.cache.deps == c.deps
    ensures forall k :: k in data ==> Read(r.0.cache, parent, k) == Some(data[k])
    ensures forall i, k :: (i != parent || k !in data) ==> Read(r.0.cache, i, k) == Read(c, i, k)
  {
    var (st, lid) := Push(c.stack, LayerValues(parent, data));
    var c' := c.(stack := st);
    (Outcome(c', Affected(c, c', c.deps)), lid)
  }

  /** `deleteLayer(handle)`: removes that layer wherever it sits in the stack
      and re-notifies the subscribers of the slots it held. */
  function DeleteLayer(c: Cache, lid: nat): (r: Outcome)
    requires Layers.Valid(c.stack)
    ensures Layers.Valid(r.cache.stack) && (WellFormed(c) ==> WellFormed(r.cache))
    ensures r.cache.records == c.records && r.cache.lists == c.lists && r.cache.deps == c.deps
    ensures forall l :: l in r.cache.stack.layers <==> l in c.stack.layers && l.id != lid
    ensures forall i, k :: Read(r.cache, i, k) == ResolveSkipping(c.stack.layers, lid, c.records, Slot(i, k))
    ensures forall i, k :: (forall j :: 0 <= j < |c.stack.layers| && c.stack.layers[j].id == lid ==> Slot(i, k) !in c.stack.layers[j].values)
              ==> Read(r.cache, i, k) == Read(c, i, k)
  {
    var c' := c.(stack := Drop(c.stack, lid));
    forall i, k | forall j :: 0 <= j < |c.stack.layers| && c.stack.layers[j].id == lid ==> Slot(i, k) !in c.stack.layers[j].values
      ensures Read(c', i, k) == Read(c, i, k)
    {
      UnstackUntouched(c.stack.layers, lid, c.records, Slot(i, k));
    }
    Outcome(c', Affected(c, c', c.deps))
  }

  /** Deleting a layer by the handle `addLayer` returned restores exactly the
      state before the layer: every read gives the pre-layer value again. */
  lemma DeleteLayerRestores(c: Cache, parent: Id, data: map<string, Value>)
    requires Layers.Valid(c.stack)
    ensures var (added, lid) := AddLayer(c, parent, data);
      && DeleteLayer(added.cache, lid).cache == c.(stack := c.stack.(next := c.stack.next + 1))
      && forall i, k :: Read(DeleteLayer(added.cache, lid).cache, i, k) == Read(c, i, k)
  {
    PushDropRestores(c.stack, LayerValues(parent, data));
  }

  /** Deleting a layer re-notifies only subscribers of slots that layer held. */
  lemma DeleteLayerNotifiesTouched(c: Cache, lid: nat)
    requires Layers.Valid(c.stack)
    ensures forall s :: s in DeleteLayer(c, lid).notified ==>
      exists d, j :: d in c.deps && d.sub == s && 0 <= j < |c.stack.layers| && c.stack.layers[j].id == lid
                     && Slot(d.record, d.key) in c.stack.layers[j].values
  {
    var r := DeleteLayer(c, lid);
    forall s | s in r.notified
      ensures exists d, j :: d in c.deps && d.sub == s && 0 <= j < |c.stack.layers| && c.stack.layers[j].id == lid
                             && Slot(d.record, d.key) in c.stack.layers[j].values
    {
      var d :| d in c.deps && d.sub == s && Observed(c, Slot(d.record, d.key)) != Observed(r.cache, Slot(d.record, d.key));
    }
  }
}

=== FILE: layers.dfy ===
/** The optimistic layer stack: sparse overlays of field values on top of
    the base store, resolved top-of-stack first. */
module Layers {
  import opened Wrappers
  import opened Records

  /** A field location: record id and storage key. */
  datatype Slot = Slot(record: Id, key: string)

  /** One overlay, addressed by the handle `addLayer` returned. */
  datatype Layer = Layer(id: nat, values: map<Slot, Value>)

  /** The stack (last element on top) and the next fresh layer handle. */
  datatype Stack = Stack(layers: seq<Layer>, next: nat)

  const EmptyStack: Stack := Stack([], 0)

  /** Every layer handle in use was issued before `next`. */
  predicate Valid(st: Stack) {
    forall i :: 0 <= i < |st.layers| ==> st.layers[i].id < st.next
  }

  /** The value a read sees: the topmost layer holding the slot, else the base store. */
  function Resolve(layers: seq<Layer>, base: Store, slot: Slot): Option<Value>
    decreases |layers|
  {
    if |layers| == 0 then FieldOf(base, slot.record, slot.key)
    else if slot in layers[|layers| - 1].values then Some(layers[|layers| - 1].values[slot])
    else Resolve(layers[..|layers| - 1], base, slot)
  }

  /** A slot that no layer holds resolves from the base store. */
  lemma {:induction false} ResolveFallsThrough(layers: seq<Layer>, base: Store, slot: Slot)
    requires forall i :: 0 <= i < |layers| ==> slot !in layers[i].values
    ensures Resolve(layers, base, slot) == FieldOf(base, slot.record, slot.key)
    decreases |layers|
  {
    if |layers| > 0 {
      var prefix := layers[..|layers| - 1];
      assert slot !in layers[|layers| - 1].values;
      assert forall i :: 0 <= i < |prefix| ==> prefix[i] == layers[i];
      ResolveFallsThrough(prefix, base, slot);
    }
  }

  /** A read depends on the base store only through the slot's own field. */
  lemma {:induction false} ResolveBase(layers: seq<Layer>, base: Store, base': Store, slot: Slot)
    requires FieldOf(base, slot.record, slot.key) == FieldOf(base', slot.record, slot.key)
    ensures Resolve(layers, base, slot) == Resolve(layers, base', slot)
    decreases |layers|
  {
    if |layers| > 0 {
      ResolveBase(layers[..|layers| - 1], base, base', slot);
    }
  }

  /** A slot resolves to the value of the topmost layer that holds it. */
  lemma {:induction false} ResolveTopmost(layers: seq<Layer>, base: Store, slot: Slot, i: nat)
    requires i < |layers| && slot in layers[i].values
    requires forall j :: i < j < |layers| ==> slot !in layers[j].values
    ensures Resolve(layers, base, slot) == Some(layers[i].values[slot])
    decreases |layers|
  {
    if i < |layers| - 1 {
      var prefix := layers[..|layers| - 1];
      assert slot !in layers[|layers| - 1].values;
      assert forall j :: 0 <= j < |prefix| ==> prefix[j] == layers[j];
      ResolveTopmost(prefix, base, slot, i);
    }
  }

  /** The stack without the layer(s) carrying handle `lid`, order kept. */
  function Unstack(layers: seq<Layer>, lid: nat): (r: seq<Layer>)
    ensures |r| <= |layers|
    ensures forall l :: l in r <==> l in layers && l.id != lid
    decreases |layers|
  {
    if |layers| == 0 then []
    else
      var rest := Unstack(layers[..|layers| - 1], lid);
      var top := layers[|layers| - 1];
      assert layers == layers[..|layers| - 1] + [top];
      if top.id == lid then rest else rest + [top]
  }

  /** Removing a handle no layer carries leaves the stack as it is. */
  lemma {:induction false} UnstackAbsent(layers: seq<Layer>, lid: nat)
    requires forall i :: 0 <= i < |layers| ==> layers[i].id != lid
    ensures Unstack(layers, lid) == layers
    decreases |layers|
  {
    if |layers| > 0 {
      var prefix := layers[..|layers| - 1];
      assert forall i :: 0 <= i < |prefix| ==> prefix[i] == layers[i];
      UnstackAbsent(prefix, lid);
      assert layers == prefix + [layers[|layers| - 1]];
    }
  }

  /** Removing a layer changes no read of a slot that layer did not hold. */
  lemma {:induction false} UnstackUntouched(layers: seq<Layer>, lid: nat, base: Store, slot: Slot)
    requires forall i :: 0 <= i < |layers| && layers[i].id == lid ==> slot !in layers[i].values
    ensures Resolve(Unstack(layers, lid), base, slot) == Resolve(layers, base, slot)
    decreases |layers|
  {
    if |layers| > 0 {
      var prefix := layers[..|layers| - 1];
      var top := layers[|layers| - 1];
      assert forall i :: 0 <= i < |prefix| ==> prefix[i] == layers[i];
      UnstackUntouched(prefix, lid, base, slot);
      var rest := Unstack(prefix, lid);
      if top.id != lid {
        assert Unstack(layers, lid) == rest + [top];
        assert (rest + [top])[..|rest + [top]| - 1] == rest;
      }
    }
  }

  /** The value a read sees when the layers carrying handle `lid` are
      skipped: the topmost other layer holding the slot, else the base store. */
  function ResolveSkipping(layers: seq<Layer>, lid: nat, base: Store, slot: Slot): Option<Value>
    decreases |layers|
  {
    if |layers| == 0 then FieldOf(base, slot.record, slot.key)
    else if layers[|layers| - 1].id != lid && slot in layers[|layers| - 1].values then Some(layers[|layers| - 1].values[slot])
    else ResolveSkipping(layers[..|layers| - 1], lid, base, slot)
  }

  /** Removing a layer keeps the other layers in their order: every read of
      the remaining stack is the read that skips the removed layer. */
  lemma {:induction false} UnstackResolves(layers: seq<Layer>, lid: nat, base: Store, slot: Slot)
    ensures Resolve(Unstack(layers, lid), base, slot) == ResolveSkipping(layers, lid, base, slot)
    decreases |layers|
  {
    if |layers| > 0 {
      var prefix := layers[..|layers| - 1];
      var top := layers[|layers| - 1];
      UnstackResolves(prefix, lid, base, slot);
      var rest := Unstack(prefix, lid);
      if top.id != lid {
        assert Unstack(layers, lid) == rest + [top];
        assert (rest + [top])[..|rest + [top]| - 1] == rest;
      }
    }
  }

  /** `addLayer`: pushes a fresh layer holding `values` and returns its handle. */
  function Push(st: Stack, values: map<Slot, Value>): (r: (Stack, nat))
    requires Valid(st)
    ensures Valid(r.0)
    ensures forall i :: 0 <= i < |st.layers| ==> st.layers[i].id != r.1
    ensures forall base, slot :: slot in values ==> Resolve(r.0.layers, base, slot) == Some(values[slot])
    ensures forall base, slot :: slot !in values ==> Resolve(r.0.layers, base, slot) == Resolve(st.layers, base, slot)
  {
    var l := Layer(st.next, values);
    var st' := Stack(st.layers + [l], st.next + 1);
    (st', st.next)
  }

  /** `deleteLayer`: removes the layer with handle `lid` wherever it sits. */
  function Drop(st: Stack, lid: nat): (r: Stack)
    requires Valid(st)
    ensures Valid(r)
    ensures forall l :: l in r.layers <==> l in st.layers && l.id != lid
    ensures forall base, slot :: Resolve(r.layers, base, slot) == ResolveSkipping(st.layers, lid, base, slot)
  {
    forall base, slot
      ensures Resolve(Unstack(st.layers, lid), base, slot) == ResolveSkipping(st.layers, lid, base, slot)
    {
      UnstackResolves(st.layers, lid, base, slot);
    }
    Stack(Unstack(st.layers, lid), st.next)
  }

  /** Two layers pushed on the same slot: dropping the lower one leaves the
      upper one's value, and dropping the upper one uncovers the lower one's,
      not the base store's. */
  lemma DropKeepsOrder(st: Stack, slot: Slot, v: Value, w: Value, base: Store)
    requires Valid(st)
    ensures var (s1, a) := Push(st, map[slot := v]);
      var (s2, b) := Push(s1, map[slot := w]);
      && Resolve(Drop(s2, a).layers, base, slot) == Some(w)
      && Resolve(Drop(s2, b).layers, base, slot) == Some(v)
  {
    var (s1, a) := Push(st, map[slot := v]);
    var (s2, b) := Push(s1, map[slot := w]);
    assert s2.layers[..|s2.layers| - 1] == s1.layers;
    assert ResolveSkipping(s2.layers, b, base, slot) == ResolveSkipping(s1.layers, b, base, slot);
  }

  /** Pushing a layer and then dropping it by its handle gives back exactly the
      layers before the push; only the handle counter has moved on, so a
      handle is never reissued. */
  lemma PushDropRestores(st: Stack, values: map<Slot, Value>)
    requires Valid(st)
    ensures Drop(Push(st, values).0, Push(st, values).1) == st.(next := st.next + 1)
  {
    var (st', lid) := Push(st, values);
    assert st'.layers[..|st'.layers| - 1] == st.layers;
    assert Unstack(st'.layers, lid) == Unstack(st.layers, lid);
    UnstackAbsent(st.layers, lid);
  }
}

=== FILE: lists.dfy ===
/** Ordered list membership and the `when` gate of list handles. */
module Lists {
  import opened Records

  /** Where `insert` puts a new member: `position: 'first' | 'last'`. */
  datatype Position = First | Last

  /** `when({must, must_not})`: key/value pairs compared with the filter
      values a list was registered with. */
  datatype Gate = Gate(must: map<string, Value>, mustNot: map<string, Value>)

  /** The gate of a handle on which `when` was never called. */
  const Always: Gate := Gate(map[], map[])

  /** `must` needs every listed pair among the filters, `must_not` needs none of
      its pairs among them. */
  predicate Passes(g: Gate, filters: map<string, Value>) {
    && (forall k :: k in g.must ==> k in filters && filters[k] == g.must[k])
    && (forall k :: k in g.mustNot ==> !(k in filters && filters[k] == g.mustNot[k]))
  }

  /** `when({must: {k: v}})` lets a mutation through iff the stored filter has k = v. */
  lemma MustGate(k: string, v: Value, filters: map<string, Value>)
    ensures Passes(Gate(map[k := v], map[]), filters) <==> k in filters && filters[k] == v
  {
    if Passes(Gate(map[k := v], map[]), filters) {
      assert k in Gate(map[k := v], map[]).must;
    }
  }

  /** `when({must_not: {k: v}})` lets a mutation through iff the stored filter
      does not have k = v. */
  lemma MustNotGate(k: string, v: Value, filters: map<string, Value>)
    ensures Passes(Gate(map[], map[k := v]), filters) <==> !(k in filters && filters[k] == v)
  {
    if Passes(Gate(map[], map[k := v]), filters) {
      assert k in Gate(map[], map[k := v]).mustNot;
    }
  }

  /** Puts one entry at the head or the tail. */
  function Insert(entries: seq<Id>, e: Id, pos: Position): seq<Id> {
    match pos
    case First => [e] + entries
    case Last => entries + [e]
  }

  /** Inserting an entry inserts its member at the same end, every existing
      member keeping its position relative to the others. */
  lemma InsertMembers(entries: seq<Id>, e: Id, pos: Position, connection: bool)
    ensures MembersOf(Insert(entries, e, pos), connection) == Insert(MembersOf(entries, connection), MemberOf(e, connection), pos)
  {
  }

  /** The member sequence with every occurrence of `x` removed (the reference
      meaning of `remove`). */
  function Without(s: seq<Id>, x: Id): (r: seq<Id>)
    ensures |r| <= |s|
    ensures forall y :: y in r <==> y in s && y != x
  {
    if |s| == 0 then []
    else if s[0] == x then Without(s[1..], x)
    else [s[0]] + Without(s[1..], x)
  }

  /** Drops every entry standing for member `x`, keeping the others in order. */
  function Unlink(entries: seq<Id>, x: Id, connection: bool): (r: seq<Id>)
    ensures |r| <= |entries|
    ensures forall e :: e in r <==> e in entries && MemberOf(e, connection) != x
  {
    if |entries| == 0 then []
    else if MemberOf(entries[0], connection) == x then Unlink(entries[1..], x, connection)
    else [entries[0]] + Unlink(entries[1..], x, connection)
  }

  /** One step of `Without` on a sequence with a known head. */
  lemma WithoutCons(m: Id, s: seq<Id>, x: Id)
    ensures Without([m] + s, x) == if m == x then Without(s, x) else [m] + Without(s, x)
  {
    assert ([m] + s)[1..] == s;
  }

  /** One step of `Unlink` on entries with a known head. */
  lemma UnlinkCons(e: Id, rest: seq<Id>, x: Id, connection: bool)
    ensures Unlink([e] + rest, x, connection)
         == if MemberOf(e, connection) == x then Unlink(rest, x, connection) else [e] + Unlink(rest, x, connection)
  {
    assert ([e] + rest)[1..] == rest;
  }

  /** Removing a member that is absent changes nothing. */
  lemma {:induction false} WithoutAbsent(s: seq<Id>, x: Id)
    requires x !in s
    ensures Without(s, x) == s
    decreases |s|
  {
    if |s| > 0 {
      WithoutAbsent(s[1..], x);
      assert s == [s[0]] + s[1..];
    }
  }

  /** Unlinking `x` removes exactly `x` from the members. */
  lemma {:induction false} UnlinkMembers(entries: seq<Id>, x: Id, connection: bool)
    ensures MembersOf(Unlink(entries, x, connection), connection) == Without(MembersOf(entries, connection), x)
    decreases |entries|
  {
    if |entries| > 0 {
      var e, rest := entries[0], entries[1..];
      var m := MemberOf(e, connection);
      assert entries == [e] + rest;
      UnlinkMembers(rest, x, connection);
      MembersConcat([e], rest, connection);
      assert MembersOf([e], connection) == [m];
      UnlinkCons(e, rest, x, connection);
      WithoutCons(m, MembersOf(rest, connection), x);
      if m != x {
        MembersConcat([e], Unlink(rest, x, connection), connection);
      }
    }
  }

  /** Drops every entry referring to record `x` (the record or an edge wrapping it). */
  function Strip(entries: seq<Id>, x: Id): (r: seq<Id>)
    ensures |r| <= |entries|
    ensures forall e :: e in r <==> e in entries && !Refers(e, x)
  {
    if |entries| == 0 then []
    else if Refers(entries[0], x) then Strip(entries[1..], x)
    else [entries[0]] + Strip(entries[1..], x)
  }

  /** After stripping `x`, no list or connection has `x` as a member and no
      member was added. */
  lemma StripMembers(entries: seq<Id>, x: Id, connection: bool)
    ensures x !in MembersOf(Strip(entries, x), connection)
    ensures forall y :: y in MembersOf(Strip(entries, x), connection) ==> y in MembersOf(entries, connection)
  {
    var r := Strip(entries, x);
    var m := MembersOf(r, connection);
    forall i | 0 <= i < |m|
      ensures m[i] != x
      ensures m[i] in MembersOf(entries, connection)
    {
      assert r[i] in r;
      var j :| 0 <= j < |entries| && entries[j] == r[i];
      assert MembersOf(entries, connection)[j] == m[i];
    }
  }

  /** The entries of `prior` whose member the incoming batch does not carry.
      An applied update keeps exactly these: an incoming entry overwrites the
      stored entry of the same member (compared by node in a connection). */
  function Kept(prior: seq<Id>, incoming: seq<Id>, connection: bool): (r: seq<Id>)
    ensures |r| <= |prior|
    ensures forall e :: e in r <==> e in prior && MemberOf(e, connection) !in MembersOf(incoming, connection)
  {
    if |prior| == 0 then []
    else if MemberOf(prior[0], connection) in MembersOf(incoming, connection) then Kept(prior[1..], incoming, connection)
    else [prior[0]] + Kept(prior[1..], incoming, connection)
  }

  /** When the incoming batch carries no stored member, every stored entry is kept. */
  lemma {:induction false} KeptAllNew(prior: seq<Id>, incoming: seq<Id>, connection: bool)
    requires forall i :: 0 <= i < |prior| ==> MemberOf(prior[i], connection) !in MembersOf(incoming, connection)
    ensures Kept(prior, incoming, connection) == prior
    decreases |prior|
  {
    if |prior| > 0 {
      KeptAllNew(prior[1..], incoming, connection);
      assert prior == [prior[0]] + prior[1..];
    }
  }

  /** One step of `Kept` on entries with a known head. */
  lemma KeptCons(e: Id, rest: seq<Id>, incoming: seq<Id>, connection: bool)
    ensures Kept([e] + rest, incoming, connection)
         == if MemberOf(e, connection) in MembersOf(incoming, connection) then Kept(rest, incoming, connection)
            else [e] + Kept(rest, incoming, connection)
  {
    assert ([e] + rest)[1..] == rest;
  }

  /** A stored member the batch does not carry keeps its multiplicity; one the
      batch carries is gone from the kept entries. */
  lemma {:induction false} KeptCounts(prior: seq<Id>, incoming: seq<Id>, connection: bool, y: Id)
    ensures y !in MembersOf(incoming, connection) ==>
      multiset(MembersOf(Kept(prior, incoming, connection), connection))[y] == multiset(MembersOf(prior, connection))[y]
    ensures y in MembersOf(incoming, connection) ==>
      multiset(MembersOf(Kept(prior, incoming, connection), connection))[y] == 0
    decreases |prior|
  {
    if |prior| > 0 {
      var e, rest := prior[0], prior[1..];
      var m := MemberOf(e, connection);
      assert prior == [e] + rest;
      KeptCounts(rest, incoming, connection, y);
      KeptCons(e, rest, incoming, connection);
      MembersConcat([e], rest, connection);
      assert MembersOf([e], connection) == [m];
      if m !in MembersOf(incoming, connection) {
        MembersConcat([e], Kept(rest, incoming, connection), connection);
      }
    }
  }

  /** A batch carrying the single member `m` keeps exactly the entries that
      unlinking `m` keeps. */
  lemma {:induction false} KeptSingle(prior: seq<Id>, incoming: seq<Id>, connection: bool, m: Id)
    requires MembersOf(incoming, connection) == [m]
    ensures Kept(prior, incoming, connection) == Unlink(prior, m, connection)
    decreases |prior|
  {
    if |prior| > 0 {
      KeptSingle(prior[1..], incoming, connection, m);
    }
  }

  /** A member survives in the kept entries iff it was stored and the batch
      does not carry it. */
  lemma KeptMembers(prior: seq<Id>, incoming: seq<Id>, connection: bool, y: Id)
    ensures y in MembersOf(Kept(prior, incoming, connection), connection)
        <==> y in MembersOf(prior, connection) && y !in MembersOf(incoming, connection)
  {
    KeptCounts(prior, incoming, connection, y);
  }
}

=== FILE: operations.dfy ===
/** The operation directives carried by a written field (`insert`, `remove`,
    `delete`) and the write call that applies a batch of field writes. */
module Operations {
  import opened Wrappers
  import opened Records
  import opened Lists
  import opened Writes
  import opened Layers
  import opened Cache

  /** Where an operation's `parentID` comes from: no parent (a list registered
      without one), a literal id, or a variable of the write. */
  datatype ParentRef = NoParent | Literal(id: Id) | Variable(name: string)

  datatype Action =
    | InsertAction(position: Option<Position>)
    | RemoveAction
    | DeleteAction(typename: string)

  /** An `insert` without a `position` goes at the tail. */
  function Placement(position: Option<Position>): (p: Position)
    ensures p == First <==> position == Some(First)
  {
    match position
    case Some(p) => p
    case None => Last
  }

  /** `{action, list, parentID, position, when}`; `when` defaults to `Always`. */
  datatype Operation = Operation(action: Action, list: string, parent: ParentRef, when: Gate)

  /** One effect of a write, as the selection walker produces it for one field. */
  datatype FieldWrite =
    | SetScalar(record: Id, key: string, value: Value, update: UpdateMode)
    | SetLinked(record: Id, key: string, target: Id)
    | SetList(record: Id, key: string, targets: seq<Id>, update: UpdateMode)
    | SetConnection(connection: Id, nodes: seq<Id>, update: UpdateMode)
    | Operate(op: Operation, typename: string, keys: seq<string>)

  function ResolveParent(p: ParentRef, variables: map<string, Id>): (r: Result<Option<Id>, Error>)
    ensures p.Variable? && p.name !in variables ==> r == Err(UnboundVariable(p.name))
    ensures p.Variable? && p.name in variables ==> r == Ok(Some(variables[p.name]))
    ensures p.Literal? ==> r == Ok(Some(p.id))
    ensures p.NoParent? ==> r == Ok(None)
  {
    match p
    case NoParent => Ok(None)
    case Literal(id) => Ok(Some(id))
    case Variable(n) => if n in variables then Ok(Some(variables[n])) else Err(UnboundVariable(n))
  }

  /** The entity ids of the elements an operation applies to. */
  function EntityIds(typename: string, keys: seq<string>): (r: seq<Id>)
    ensures |r| == |keys|
    ensures forall i :: 0 <= i < |keys| ==> r[i] == Entity(typename, keys[i])
  {
    seq(|keys|, i requires 0 <= i < |keys| => Entity(typename, keys[i]))
  }

  function Reverse(s: seq<Id>): (r: seq<Id>)
    ensures |r| == |s|
  {
    if |s| == 0 then [] else Reverse(s[1..]) + [s[0]]
  }

  /** Inserts each id in turn, once per element. */
  function InsertAll(c: Cache, info: ListInfo, ids: seq<Id>, pos: Position): (r: Cache)
    ensures r.lists == c.lists && r.stack == c.stack && c.deps <= r.deps
    ensures forall i, k :: FieldOf(r.records, i, k) == FieldOf(c.records, i, k)
    ensures forall i: Id, k :: !i.Edge? && (i != info.record || k != info.key) ==> LinkOf(r.records, i, k) == LinkOf(c.records, i, k)
    ensures WellFormed(c) ==> WellFormed(r)
    decreases |ids|
  {
    if |ids| == 0 then c else InsertAll(LinkMember(c, info, ids[0], pos), info, ids[1..], pos)
  }

  /** Inserting at the tail once per element appends the elements in order;
      inserting at the head once per element puts them, reversed, in front. */
  lemma InsertAllMembers(c: Cache, info: ListInfo, ids: seq<Id>, pos: Position)
    ensures pos == Last ==> Members(InsertAll(c, info, ids, pos), info) == Members(c, info) + ids
    ensures pos == First ==> Members(InsertAll(c, info, ids, pos), info) == Reverse(ids) + Members(c, info)
  {
    if pos == Last {
      InsertAllLast(c, info, ids);
    } else {
      InsertAllFirst(c, info, ids);
    }
  }

  lemma {:induction false} InsertAllLast(c: Cache, info: ListInfo, ids: seq<Id>)
    ensures Members(InsertAll(c, info, ids, Last), info) == Members(c, info) + ids
    decreases |ids|
  {
    if |ids| > 0 {
      var c1 := LinkMember(c, info, ids[0], Last);
      InsertAllLast(c1, info, ids[1..]);
      assert InsertAll(c, info, ids, Last) == InsertAll(c1, info, ids[1..], Last);
      AppendStep(ids, Members(c, info));
    }
  }

  lemma AppendStep(ids: seq<Id>, m: seq<Id>)
    requires |ids| > 0
    ensures (m + [ids[0]]) + ids[1..] == m + ids
  {
    assert ids == [ids[0]] + ids[1..];
  }

  lemma {:induction false} InsertAllFirst(c: Cache, info: ListInfo, ids: seq<Id>)
    ensures Members(InsertAll(c, info, ids, First), info) == Reverse(ids) + Members(c, info)
    decreases |ids|
  {
    if |ids| > 0 {
      var c1 := LinkMember(c, info, ids[0], First);
      InsertAllFirst(c1, info, ids[1..]);
      assert InsertAll(c, info, ids, First) == InsertAll(c1, info, ids[1..], First);
      PrependStep(ids, Members(c, info));
    }
  }

  lemma PrependStep(ids: seq<Id>, m: seq<Id>)
    requires |ids| > 0
    ensures Reverse(ids[1..]) + ([ids[0]] + m) == Reverse(ids) + m
  {
    var a, x, r := Reverse(ids[1..]), ids[0], Reverse(ids);
    assert r == a + [x];
    forall i | 0 <= i < |r + m|
      ensures (r + m)[i] == (a + ([x] + m))[i]
    {
      if i < |a| {
        assert (r + m)[i] == r[i] == a[i];
      } else if i > |a| {
        assert (r + m)[i] == m[i - |r|];
      }
    }
  }

  /** Unlinks each id in turn. */
  function RemoveAll(c: Cache, info: ListInfo, ids: seq<Id>): (r: Cache)
    ensures r.lists == c.lists && r.stack == c.stack && r.deps <= c.deps
    ensures forall i: Id, k :: !i.Edge? ==> FieldOf(r.records, i, k) == FieldOf(c.records, i, k)
    ensures forall i: Id, k :: !i.Edge? && (i != info.record || k != info.key) ==> LinkOf(r.records, i, k) == LinkOf(c.records, i, k)
    ensures WellFormed(c) ==> WellFormed(r)
    decreases |ids|
  {
    if |ids| == 0 then c else RemoveAll(UnlinkMember(c, info, ids[0]), info, ids[1..])
  }

  /** After removing a batch, a record is a member iff it was one and is not in the batch. */
  lemma {:induction false} RemoveAllMembers(c: Cache, info: ListInfo, ids: seq<Id>)
    ensures forall y :: y in Members(RemoveAll(c, info, ids), info) <==> y in Members(c, info) && y !in ids
    decreases |ids|
  {
    if |ids| > 0 {
      RemoveAllMembers(UnlinkMember(c, info, ids[0]), info, ids[1..]);
    }
  }

  /** After removing a batch of entities, the list's subscribers no longer
      watch the fields the list reads of them (unless such a field holds a
      registered list), and every other field keeps its subscribers. */
  lemma {:induction false} RemoveAllUnsubscribes(c: Cache, info: ListInfo, ids: seq<Id>)
    requires forall i :: 0 <= i < |ids| ==> ids[i].Entity?
    ensures forall y, s, k :: y in ids && s in info.subscribers && k in info.fields && Slot(y, k) !in ListSlots(c) ==>
              s !in Subscribers(RemoveAll(c, info, ids), y, k)
    ensures forall y, k :: (y !in ids || k !in info.fields) && !y.Edge? ==> Subscribers(RemoveAll(c, info, ids), y, k) == Subscribers(c, y, k)
    decreases |ids|
  {
    if |ids| > 0 {
      var c1 := UnlinkMember(c, info, ids[0]);
      RemoveAllUnsubscribes(c1, info, ids[1..]);
      var r := RemoveAll(c, info, ids);
      assert r == RemoveAll(c1, info, ids[1..]);
      assert ListSlots(c1) == ListSlots(c);
      forall y, s, k | y in ids && s in info.subscribers && k in info.fields && Slot(y, k) !in ListSlots(c)
        ensures s !in Subscribers(r, y, k)
      {
        if y !in ids[1..] {
          assert y == ids[0];
        }
      }
    }
  }

  /** Deletes each id in turn. */
  function DeleteAll(c: Cache, ids: seq<Id>): (r: Cache)
    ensures r.lists == c.lists && r.stack == c.stack
    ensures WellFormed(c) && (forall y :: y in ids ==> HoldsNoList(c, y)) ==> WellFormed(r)
    decreases |ids|
  {
    if |ids| == 0 then c
    else
      var c1 := DeleteRecord(c, ids[0]);
      assert forall y :: HoldsNoList(c1, y) == HoldsNoList(c, y);
      DeleteAll(c1, ids[1..])
  }

  /** After deleting a batch, no record of the batch is stored and no record
      was added. */
  lemma {:induction false} DeleteAllRecords(c: Cache, ids: seq<Id>)
    ensures forall y :: y in ids ==> y !in DeleteAll(c, ids).records
    ensures forall i :: i in DeleteAll(c, ids).records ==> i in c.records
    decreases |ids|
  {
    if |ids| > 0 {
      var c1 := DeleteRecord(c, ids[0]);
      DeleteAllRecords(c1, ids[1..]);
      var r := DeleteAll(c, ids);
      assert r == DeleteAll(c1, ids[1..]);
      forall y | y in ids
        ensures y !in r.records
      {
        if y != ids[0] {
          assert y in ids[1..];
        }
      }
    }
  }

  /** After deleting a batch, no record of the batch is a member of any list
      and no list gained a member. */
  lemma {:induction false} DeleteAllMembers(c: Cache, ids: seq<Id>, info: ListInfo)
    ensures forall y :: y in ids ==> y !in Members(DeleteAll(c, ids), info)
    ensures forall y :: y in Members(DeleteAll(c, ids), info) ==> y in Members(c, info)
    decreases |ids|
  {
    if |ids| > 0 {
      var c1 := DeleteRecord(c, ids[0]);
      DeleteAllMembers(c1, ids[1..], info);
      var r := DeleteAll(c, ids);
      assert r == DeleteAll(c1, ids[1..]);
      assert ids[0] !in Members(c1, info);
      forall y | y in ids
        ensures y !in Members(r, info)
      {
        if y != ids[0] {
          assert y in ids[1..];
        }
      }
    }
  }

  /** After deleting a batch, nothing watches any record of the batch. */
  lemma {:induction false} DeleteAllUnsubscribes(c: Cache, ids: seq<Id>)
    ensures forall y, k :: y in ids ==> Subscribers(DeleteAll(c, ids), y, k) == {}
    ensures forall y, k :: Subscribers(DeleteAll(c, ids), y, k) <= Subscribers(c, y, k)
    decreases |ids|
  {
    if |ids| > 0 {
      var c1 := DeleteRecord(c, ids[0]);
      DeleteAllUnsubscribes(c1, ids[1..]);
      var r := DeleteAll(c, ids);
      assert r == DeleteAll(c1, ids[1..]);
      forall y, k | y in ids
        ensures Subscribers(r, y, k) == {}
      {
        if y !in ids[1..] {
          assert y == ids[0];
          assert Subscribers(r, y, k) <= Subscribers(c1, y, k);
        }
      }
    }
  }

  /** The slot holding the entries of the list an operation names, when
      its parent resolves and such a list is registered. */
  function TargetSlot(lists: map<ListKey, ListInfo>, variables: map<string, Id>, op: Operation): Option<Slot> {
    match ResolveParent(op.parent, variables)
    case Ok(parent) =>
      if ListKey(op.list, parent) in lists then Some(Slot(lists[ListKey(op.list, parent)].record, lists[ListKey(op.list, parent)].key)) else None
    case Err(_) => None
  }

  /** The list an `insert` or `remove` operation targets. */
  function Target(c: Cache, variables: map<string, Id>, op: Operation): (r: Result<ListInfo, Error>)
    ensures r.Ok? <==> ResolveParent(op.parent, variables).Ok? && ListKey(op.list, ResolveParent(op.parent, variables).value) in c.lists
    ensures r.Ok? ==> r.value == c.lists[ListKey(op.list, ResolveParent(op.parent, variables).value)]
    ensures r.Ok? <==> TargetSlot(c.lists, variables, op).Some?
    ensures r.Ok? ==> TargetSlot(c.lists, variables, op) == Some(Slot(r.value.record, r.value.key))
  {
    var parent :- ResolveParent(op.parent, variables);
    Lookup(c, op.list, parent)
  }

  /** True unless `action` deletes a record holding a registered list. */
  predicate Spares(c: Cache, action: Action, keys: seq<string>) {
    action.DeleteAction? ==> forall y :: y in EntityIds(action.typename, keys) ==> HoldsNoList(c, y)
  }

  /** Applies one operation directive to the elements of the written field:
      `insert` links each element into the target list (tail unless
      `position` is first), `remove` unlinks each, `delete` deletes each
      record everywhere. An unknown list or unbound parent variable is an
      error; a failing `when` leaves the cache as it is. */
  function ApplyOperation(c: Cache, variables: map<string, Id>, op: Operation, typename: string, keys: seq<string>): (r: Result<Cache, Error>)
    ensures r.Ok? ==> r.value.lists == c.lists && r.value.stack == c.stack
    ensures r.Ok? && WellFormed(c) && Spares(c, op.action, keys) ==> WellFormed(r.value)
    ensures r.Ok? && !op.action.DeleteAction? ==> forall i: Id, k :: !i.Edge? && TargetSlot(c.lists, variables, op) != Some(Slot(i, k)) ==>
              && FieldOf(r.value.records, i, k) == FieldOf(c.records, i, k)
              && LinkOf(r.value.records, i, k) == LinkOf(c.records, i, k)
    ensures op.action.DeleteAction? ==>
      && r.Ok?
      && (forall y :: y in EntityIds(op.action.typename, keys) ==> y !in r.value.records)
      && (forall y, info :: y in EntityIds(op.action.typename, keys) ==> y !in Members(r.value, info))
      && (forall y, info :: y in Members(r.value, info) ==> y in Members(c, info))
      && (forall i :: i in r.value.records ==> i in c.records)
      && (forall y, k :: y in EntityIds(op.action.typename, keys) ==> Subscribers(r.value, y, k) == {})
    ensures !op.action.DeleteAction? ==>
      match ResolveParent(op.parent, variables)
      case Err(e) => r == Err(e)
      case Ok(parent) =>
        if ListKey(op.list, parent) !in c.lists then r == Err(UnknownList(op.list))
        else
          var info := c.lists[ListKey(op.list, parent)];
          var ids := EntityIds(typename, keys);
          if !Passes(op.when, info.filters) then r == Ok(c)
          else
            && r.Ok?
            && (op.action.InsertAction? && Placement(op.action.position) == Last ==> Members(r.value, info) == Members(c, info) + ids)
            && (op.action.InsertAction? && Placement(op.action.position) == First ==> Members(r.value, info) == Reverse(ids) + Members(c, info))
            && (op.action.InsertAction? ==> c.deps <= r.value.deps)
            && (op.action.RemoveAction? ==> forall y :: y in Members(r.value, info) <==> y in Members(c, info) && y !in ids)
            && (op.action.RemoveAction? ==> forall y, s, k :: y in ids && s in info.subscribers && k in info.fields && Slot(y, k) !in ListSlots(c) ==>
                  s !in Subscribers(r.value, y, k))
            && (op.action.RemoveAction? ==> forall y, k :: (y !in ids || k !in info.fields) && !y.Edge? ==> Subscribers(r.value, y, k) == Subscribers(c, y, k))
            && (op.action.RemoveAction? ==> r.value.deps <= c.deps)
  {
    match op.action
    case DeleteAction(t) =>
      var ids := EntityIds(t, keys);
      DeleteAllRecords(c, ids);
      DeleteAllUnsubscribes(c, ids);
      forall info
        ensures forall y :: y in ids ==> y !in Members(DeleteAll(c, ids), info)
        ensures forall y :: y in Members(DeleteAll(c, ids), info) ==> y in Members(c, info)
      {
        DeleteAllMembers(c, ids, info);
      }
      Ok(DeleteAll(c, ids))
    case InsertAction(position) =>
      var info :- Target(c, variables, op);
      var ids := EntityIds(typename, keys);
      if !Passes(op.when, info.filters) then Ok(c)
      else
        InsertAllMembers(c, info, ids, Placement(position));
        Ok(InsertAll(c, info, ids, Placement(position)))
    case RemoveAction =>
      var info :- Target(c, variables, op);
      var ids := EntityIds(typename, keys);
      if !Passes(op.when, info.filters) then Ok(c)
      else
        RemoveAllMembers(c, info, ids);
        RemoveAllUnsubscribes(c, info, ids);
        Ok(RemoveAll(c, info, ids))
  }

  /** True when `w` may change the field or the link stored at `slot`, given
      the registered lists and the write's variables. A connection write
      also creates the node link of its new edges; an `insert` or `remove`
      changes the link of its target list and edge records; a `delete` may
      change any slot, since it strips its records from every link. */
  predicate Touches(lists: map<ListKey, ListInfo>, variables: map<string, Id>, w: FieldWrite, slot: Slot) {
    match w
    case SetScalar(id, key, _, _) => slot == Slot(id, key)
    case SetLinked(id, key, _) => slot == Slot(id, key)
    case SetList(id, key, _, _) => slot == Slot(id, key)
    case SetConnection(conn, _, _) => slot == Slot(conn, EdgesKey) || (slot.record.Edge? && slot.key == NodeKey)
    case Operate(op, _, _) => op.action.DeleteAction? || slot.record.Edge? || TargetSlot(lists, variables, op) == Some(slot)
  }

  /** True when some write of the batch may change `slot`. */
  predicate TouchedBy(lists: map<ListKey, ListInfo>, variables: map<string, Id>, ws: seq<FieldWrite>, slot: Slot) {
    |ws| > 0 && (Touches(lists, variables, ws[0], slot) || TouchedBy(lists, variables, ws[1..], slot))
  }

  /** A slot is touched by two batches run one after the other exactly when
      one of them touches it. */
  lemma {:induction false} TouchedByConcat(lists: map<ListKey, ListInfo>, variables: map<string, Id>, a: seq<FieldWrite>, b: seq<FieldWrite>, slot: Slot)
    ensures TouchedBy(lists, variables, a + b, slot) <==> TouchedBy(lists, variables, a, slot) || TouchedBy(lists, variables, b, slot)
    decreases |a|
  {
    if |a| > 0 {
      assert (a + b)[0] == a[0];
      assert (a + b)[1..] == a[1..] + b;
      TouchedByConcat(lists, variables, a[1..], b, slot);
    } else {
      assert a + b == b;
    }
  }

  /** True unless some `delete` directive of the batch deletes a record
      holding a registered list. */
  predicate SparesAll(c: Cache, ws: seq<FieldWrite>) {
    |ws| > 0 ==> (ws[0].Operate? ==> Spares(c, ws[0].op.action, ws[0].keys)) && SparesAll(c, ws[1..])
  }

  /** Applies one field write to the base store. */
  function Apply(c: Cache, variables: map<string, Id>, w: FieldWrite, applyUpdates: bool): (r: Result<Cache, Error>)
    ensures !w.Operate? ==> r.Ok? && r.value.deps == c.deps
    ensures r.Ok? ==> r.value.lists == c.lists && r.value.stack == c.stack
    ensures r.Ok? ==> forall slot :: !Touches(c.lists, variables, w, slot) ==>
              && FieldOf(r.value.records, slot.record, slot.key) == FieldOf(c.records, slot.record, slot.key)
              && LinkOf(r.value.records, slot.record, slot.key) == LinkOf(c.records, slot.record, slot.key)
    ensures r.Ok? && WellFormed(c) && (w.Operate? ==> Spares(c, w.op.action, w.keys)) ==> WellFormed(r.value)
  {
    match w
    case SetScalar(id, key, v, mode) => Ok(c.(records := WriteField(c.records, id, key, v, mode, applyUpdates)))
    case SetLinked(id, key, t) => Ok(c.(records := WriteLink(c.records, id, key, t)))
    case SetList(id, key, ts, mode) => Ok(c.(records := WriteList(c.records, id, key, ts, mode, applyUpdates)))
    case SetConnection(conn, nodes, mode) => Ok(c.(records := WriteConnection(c.records, conn, nodes, mode, applyUpdates)))
    case Operate(op, t, keys) => ApplyOperation(c, variables, op, t, keys)
  }

  /** Applies a batch of field writes in order, stopping at the first error.
      A slot no write of the batch touches keeps its field and its link. */
  function Run(c: Cache, variables: map<string, Id>, ws: seq<FieldWrite>, applyUpdates: bool): (r: Result<Cache, Error>)
    ensures (forall i :: 0 <= i < |ws| ==> !ws[i].Operate?) ==> r.Ok? && r.value.deps == c.deps
    ensures r.Ok? ==> r.value.lists == c.lists && r.value.stack == c.stack
    ensures r.Ok? ==> forall slot :: !TouchedBy(c.lists, variables, ws, slot) ==>
              && FieldOf(r.value.records, slot.record, slot.key) == FieldOf(c.records, slot.record, slot.key)
              && LinkOf(r.value.records, slot.record, slot.key) == LinkOf(c.records, slot.record, slot.key)
    ensures r.Ok? && WellFormed(c) && SparesAll(c, ws) ==> WellFormed(r.value)
    decreases |ws|
  {
    if |ws| == 0 then Ok(c)
    else
      var c1 :- Apply(c, variables, ws[0], applyUpdates);
      SparesSameLists(c, c1, ws[1..]);
      Run(c1, variables, ws[1..], applyUpdates)
  }

  /** Whether a batch spares the lists depends only on the registry. */
  lemma {:induction false} SparesSameLists(c: Cache, c': Cache, ws: seq<FieldWrite>)
    requires c'.lists == c.lists
    ensures SparesAll(c, ws) == SparesAll(c', ws)
    decreases |ws|
  {
    if |ws| > 0 {
      SparesSameLists(c, c', ws[1..]);
      if ws[0].Operate? {
        forall y ensures HoldsNoList(c, y) == HoldsNoList(c', y) { }
      }
    }
  }

  /** A scalar replaced, or a single link written, by a write of the batch
      that no later write touches holds the written value afterwards. */
  lemma {:induction false} RunLastWrite(c: Cache, variables: map<string, Id>, ws: seq<FieldWrite>, applyUpdates: bool, j: nat)
    requires j < |ws| && (ws[j].SetScalar? || ws[j].SetLinked?)
    requires !TouchedBy(c.lists, variables, ws[j + 1..], Slot(ws[j].record, ws[j].key))
    requires Run(c, variables, ws, applyUpdates).Ok?
    ensures ws[j].SetScalar? && ws[j].update == Replace ==>
              FieldOf(Run(c, variables, ws, applyUpdates).value.records, ws[j].record, ws[j].key) == Some(ws[j].value)
    ensures ws[j].SetLinked? ==>
              LinkOf(Run(c, variables, ws, applyUpdates).value.records, ws[j].record, ws[j].key) == Some(One(ws[j].target))
    decreases j
  {
    var c1 := Apply(c, variables, ws[0], applyUpdates).value;
    assert Run(c, variables, ws, applyUpdates) == Run(c1, variables, ws[1..], applyUpdates);
    if j == 0 {
      assert ws[1..] == ws[j + 1..];
    } else {
      assert ws[1..][j - 1] == ws[j] && ws[1..][j - 1 + 1..] == ws[j + 1..];
      RunLastWrite(c1, variables, ws[1..], applyUpdates, j - 1);
    }
  }

  /** Every subscription a change notifies depends on a slot whose base
      value or link changed, provided the layers stay as they are. */
  lemma ChangedSlotsOnly(c: Cache, c': Cache, variables: map<string, Id>, ws: seq<FieldWrite>)
    requires c'.stack == c.stack
    requires forall slot :: !TouchedBy(c.lists, variables, ws, slot) ==>
               && FieldOf(c'.records, slot.record, slot.key) == FieldOf(c.records, slot.record, slot.key)
               && LinkOf(c'.records, slot.record, slot.key) == LinkOf(c.records, slot.record, slot.key)
    ensures forall s :: s in Affected(c, c', c.deps) ==> exists d :: d in c.deps && d.sub == s && TouchedBy(c.lists, variables, ws, Slot(d.record, d.key))
  {
    forall s | s in Affected(c, c', c.deps)
      ensures exists d :: d in c.deps && d.sub == s && TouchedBy(c.lists, variables, ws, Slot(d.record, d.key))
    {
      var d :| d in c.deps && d.sub == s && Observed(c, Slot(d.record, d.key)) != Observed(c', Slot(d.record, d.key));
      if !TouchedBy(c.lists, variables, ws, Slot(d.record, d.key)) {
        ResolveBase(c.stack.layers, c.records, c'.records, Slot(d.record, d.key));
        assert false;
      }
    }
  }

  /** `cache.write({selection, data, variables, applyUpdates})`: applies the
      batch, then notifies, once each, the subscriptions whose dependencies
      observe a different value than before the write. Only subscriptions
      depending on a slot the batch touched are notified, and a list whose
      link changed re-notifies all its subscribers. */
  function Write(c: Cache, variables: map<string, Id>, ws: seq<FieldWrite>, applyUpdates: bool): (r: Result<Outcome, Error>)
    ensures r.Err? <==> Run(c, variables, ws, applyUpdates).Err?
    ensures r.Ok? ==> r.value.cache == Run(c, variables, ws, applyUpdates).value
    ensures r.Ok? ==> forall d :: d in c.deps && Observed(c, Slot(d.record, d.key)) != Observed(r.value.cache, Slot(d.record, d.key)) ==>
              d.sub in r.value.notified
    ensures r.Ok? ==> forall s :: s in r.value.notified ==> exists d :: d in c.deps && d.sub == s && TouchedBy(c.lists, variables, ws, Slot(d.record, d.key))
    ensures r.Ok? && WellFormed(c) ==> forall k :: k in c.lists && Members(r.value.cache, c.lists[k]) != Members(c, c.lists[k]) ==>
              c.lists[k].subscribers <= r.value.notified
    ensures r.Ok? && WellFormed(c) ==> forall k ::
              k in c.lists && LinkOf(r.value.cache.records, c.lists[k].record, c.lists[k].key) != LinkOf(c.records, c.lists[k].record, c.lists[k].key) ==>
              c.lists[k].subscribers <= r.value.notified
    ensures r.Ok? && WellFormed(c) && SparesAll(c, ws) ==> WellFormed(r.value.cache)
  {
    var c' :- Run(c, variables, ws, applyUpdates);
    ChangedSlotsOnly(c, c', variables, ws);
    forall k | k in c.lists && WellFormed(c) && LinkOf(c'.records, c.lists[k].record, c.lists[k].key) != LinkOf(c.records, c.lists[k].record, c.lists[k].key)
      ensures c.lists[k].subscribers <= Affected(c, c', c.deps)
    {
      NotifiesListSubscribers(c, c', c.lists[k]);
    }
    Ok(Outcome(c', Affected(c, c', c.deps)))
  }
}

=== FILE: records.dfy ===
/** The record store: identifiers, stored values, links and records. */
module Records {
  import opened Wrappers

  /** A record identifier. An entity is addressed by its type name and the
      value of its key field `id`; a record without a key lives under the path
      of the field that holds it; a connection edge is addressed by its
      connection record, its position in the edge array and the node it wraps. */
  datatype Id =
    | Root
    | Entity(typename: string, key: string)
    | Nested(parent: Id, field: string)
    | Edge(connection: Id, index: nat, node: Id)

  /** A stored scalar, or an array of scalars. */
  datatype Value = Str(s: string) | Int(i: int) | Bool(b: bool) | Array(items: seq<Value>) | Null

  /** A link is a single record id or an ordered sequence of ids. */
  datatype Link = One(target: Id) | Many(targets: seq<Id>)

  datatype Record = Record(fields: map<string, Value>, links: map<string, Link>)

  type Store = map<Id, Record>

  /** The key field every entity is identified by. */
  const KeyField: string := "id"

  /** The field naming a record's concrete type. */
  const TypenameField: string := "__typename"

  /** The link from a connection record to its edges, and from an edge to its node. */
  const EdgesKey: string := "edges"
  const NodeKey: string := "node"

  const Blank: Record := Record(map[], map[])

  /** The text a key value contributes to an id: a string as it is, a
      number in decimal, a boolean as `true` or `false`. A null or an array
      identifies nothing. */
  function KeyText(v: Value): (r: Option<string>)
    ensures r.Some? <==> v.Str? || v.Int? || v.Bool?
    ensures v.Str? ==> r == Some(v.s)
  {
    match v
    case Str(s) => Some(s)
    case Int(i) => Some(IntToString(i))
    case Bool(b) => Some(if b then "true" else "false")
    case _ => None
  }

  /** The id of a record of type `typename` written with `data`: the entity
      keyed by the text of its `id` field, or None when that field is absent
      or holds nothing that identifies. `cache.id(type, key)` with a string
      key, as the tests call it, is `Entity(type, key)` directly. */
  function Identify(typename: string, data: map<string, Value>): (r: Option<Id>)
    ensures r.Some? <==> KeyField in data && KeyText(data[KeyField]).Some?
    ensures r.Some? ==> r.value == Entity(typename, KeyText(data[KeyField]).value)
  {
    if KeyField in data && KeyText(data[KeyField]).Some? then Some(Entity(typename, KeyText(data[KeyField]).value)) else None
  }

  /** A numeric key identifies the same entity as its decimal text; a null
      key identifies nothing. */
  lemma NumericKeyIdentifies()
    ensures Identify("User", map[KeyField := Int(3)]) == Identify("User", map[KeyField := Str("3")]) == Some(Entity("User", "3"))
    ensures Identify("User", map[KeyField := Int(-12)]) == Some(Entity("User", "-12"))
    ensures Identify("User", map[KeyField := Null]) == None
  {
    assert NatToString(1) == "1";
    assert NatToString(12) == NatToString(1) + ['2'] == "12";
    assert IntToString(-12) == "-" + "12" == "-12";
    assert KeyText(map[KeyField := Int(-12)][KeyField]) == Some("-12");
  }

  /** Two numeric keys give the same id text only when they are equal. */
  lemma IntKeysDistinct(i: int, j: int)
    requires KeyText(Int(i)) == KeyText(Int(j))
    ensures i == j
  {
    assert IntToString(i) == IntToString(j);
    SignedText(i);
    SignedText(j);
    if i < 0 {
      var a, b := NatToString(-i), NatToString(-j);
      assert a == ("-" + a)[1..] && b == ("-" + b)[1..];
      NatToStringInjective(-i, -j);
    } else {
      NatToStringInjective(i, j);
    }
  }

  /** The member an entry of a link sequence stands for: a connection wraps
      each member in an edge, a plain list holds the member itself. */
  function MemberOf(e: Id, connection: bool): Id {
    if connection && e.Edge? then e.node else e
  }

  function MembersOf(entries: seq<Id>, connection: bool): (r: seq<Id>)
    ensures |r| == |entries|
    ensures forall i :: 0 <= i < |entries| ==> r[i] == MemberOf(entries[i], connection)
  {
    seq(|entries|, i requires 0 <= i < |entries| => MemberOf(entries[i], connection))
  }

  /** The members of two concatenated entry sequences. */
  lemma MembersConcat(a: seq<Id>, b: seq<Id>, connection: bool)
    ensures MembersOf(a + b, connection) == MembersOf(a, connection) + MembersOf(b, connection)
  {
    var l, r := MembersOf(a + b, connection), MembersOf(a, connection) + MembersOf(b, connection);
    forall i | 0 <= i < |l|
      ensures l[i] == r[i]
    {
      if i >= |a| {
        assert (a + b)[i] == b[i - |a|];
      }
    }
  }

  /** True when entry `e` of some link refers to record `x`: it is `x`, or an
      edge wrapping `x`. */
  predicate Refers(e: Id, x: Id) {
    e == x || (e.Edge? && e.node == x)
  }

  function Get(s: Store, id: Id): Record {
    if id in s then s[id] else Blank
  }

  function FieldOf(s: Store, id: Id, key: string): Option<Value> {
    if id in s && key in s[id].fields then Some(s[id].fields[key]) else None
  }

  function LinkOf(s: Store, id: Id, key: string): Option<Link> {
    if id in s && key in s[id].links then Some(s[id].links[key]) else None
  }

  /** `flatLinkedList(key)`: the ids a link holds, in order. */
  function LinksAt(s: Store, id: Id, key: string): seq<Id> {
    match LinkOf(s, id, key)
    case Some(Many(ts)) => ts
    case Some(One(t)) => [t]
    case None => []
  }

  function SetField(s: Store, id: Id, key: string, v: Value): (r: Store)
    ensures r.Keys == s.Keys + {id}
    ensures FieldOf(r, id, key) == Some(v)
    ensures forall i, k :: (i != id || k != key) ==> FieldOf(r, i, k) == FieldOf(s, i, k)
    ensures forall i, k :: LinkOf(r, i, k) == LinkOf(s, i, k)
  {
    var rec := Get(s, id);
    s[id := rec.(fields := rec.fields[key := v])]
  }

  function SetLink(s: Store, id: Id, key: string, l: Link): (r: Store)
    ensures r.Keys == s.Keys + {id}
    ensures LinkOf(r, id, key) == Some(l)
    ensures forall i, k :: (i != id || k != key) ==> LinkOf(r, i, k) == LinkOf(s, i, k)
    ensures forall i, k :: FieldOf(r, i, k) == FieldOf(s, i, k)
  {
    var rec := Get(s, id);
    s[id := rec.(links := rec.links[key := l])]
  }

  /** Writes every field of `data` on record `id`, creating the record if needed. */
  function SetFields(s: Store, id: Id, data: map<string, Value>): (r: Store)
    ensures r.Keys == s.Keys + {id}
    ensures forall k :: k in data ==> FieldOf(r, id, k) == Some(data[k])
    ensures forall i, k :: (i != id || k !in data) ==> FieldOf(r, i, k) == FieldOf(s, i, k)
    ensures forall i, k :: LinkOf(r, i, k) == LinkOf(s, i, k)
  {
    var rec := Get(s, id);
    s[id := rec.(fields := rec.fields + data)]
  }

  /** Decimal digits of a natural number. */
  function NatToString(n: nat): (r: string)
    ensures 1 <= |r| && (n >= 10 ==> 2 <= |r|)
    ensures forall k :: 0 <= k < |r| ==> '0' <= r[k] <= '9'
    decreases n
  {
    var d := "0123456789"[n % 10];
    if n < 10 then [d] else NatToString(n / 10) + [d]
  }

  /** A whole number in decimal, with a leading `-` when negative. */
  function IntToString(i: int): string {
    if i < 0 then "-" + NatToString(-i) else NatToString(i)
  }

  /** The text of a number starts with `-` exactly when it is negative. */
  lemma SignedText(i: int)
    ensures IntToString(i)[0] == '-' <==> i < 0
  {
    if i >= 0 {
      assert '0' <= IntToString(i)[0] <= '9';
    }
  }

  /** Decimal text tells numbers apart. */
  lemma {:induction false} NatToStringInjective(n: nat, m: nat)
    requires NatToString(n) == NatToString(m)
    ensures n == m
    decreases n
  {
    var s := NatToString(n);
    assert s[|s| - 1] == "0123456789"[n % 10] == "0123456789"[m % 10];
    if n >= 10 && m >= 10 {
      assert NatToString(n / 10) == s[..|s| - 1] == NatToString(m / 10);
      NatToStringInjective(n / 10, m / 10);
    }
  }

  /** The textual form of an id as the cache prints it, e.g. `User:1`,
      `User:1.friends` and `User:1.friends.edges[0]#User:2`. */
  function Render(x: Id): string {
    match x
    case Root => "_ROOT_"
    case Entity(t, k) => t + ":" + k
    case Nested(p, f) => Render(p) + "." + f
    case Edge(c, i, n) => Render(c) + "." + EdgesKey + "[" + NatToString(i) + "]#" + Render(n)
  }
}

=== FILE: scenarios.dfy ===
/** The concrete cases of the cache's list and layer tests, derived from the
    general properties of the model. */
module Scenarios {
  import opened Wrappers
  import opened Records
  import opened Lists
  import opened Writes
  import opened Layers
  import opened Cache
  import opened Operations

  function User(key: string): Id {
    Entity("User", key)
  }

  const Friends: string := "friends"

  /** On an empty list an applied update stores the batch as it is. */
  lemma FirstBatch(incoming: seq<Id>, mode: UpdateMode)
    requires mode != Replace
    ensures CombineLinks([], incoming, mode, true, false) == incoming
  {
    CombineAllNew([], incoming, mode, false);
  }

  /** Users 4 and 5 are new to a list of users 2 and 3. */
  lemma NewBatch(prior: seq<Id>, incoming: seq<Id>, mode: UpdateMode)
    requires prior == [User("2"), User("3")] && incoming == [User("4"), User("5")] && mode != Replace
    ensures CombineLinks(prior, incoming, mode, true, false) == if mode == Append then prior + incoming else incoming + prior
  {
    assert MembersOf(prior, false) == prior;
    assert MembersOf(incoming, false) == incoming;
    forall i | 0 <= i < |prior|
      ensures MemberOf(prior[i], false) !in MembersOf(incoming, false)
    {
    }
    CombineAllNew(prior, incoming, mode, false);
  }

  /** `prepend` with `applyUpdates: true`: the second batch goes in front,
      each batch in its own order. */
  lemma PrependLinkedListUpdate()
    ensures var s1 := WriteList(map[], User("1"), Friends, [User("2"), User("3")], Prepend, true);
      var s2 := WriteList(s1, User("1"), Friends, [User("4"), User("5")], Prepend, true);
      && LinksAt(s1, User("1"), Friends) == [User("2"), User("3")]
      && LinksAt(s2, User("1"), Friends) == [User("4"), User("5"), User("2"), User("3")]
  {
    var a, b := [User("2"), User("3")], [User("4"), User("5")];
    FirstBatch(a, Prepend);
    NewBatch(a, b, Prepend);
  }

  /** `append` with `applyUpdates: true` on the second write: the new batch
      goes after the existing members. */
  lemma AppendLinkedListUpdate()
    ensures var s1 := WriteList(map[], User("1"), Friends, [User("2"), User("3")], Append, false);
      var s2 := WriteList(s1, User("1"), Friends, [User("4"), User("5")], Append, true);
      && LinksAt(s1, User("1"), Friends) == [User("2"), User("3")]
      && LinksAt(s2, User("1"), Friends) == [User("2"), User("3"), User("4"), User("5")]
  {
    NewBatch([User("2"), User("3")], [User("4"), User("5")], Append);
  }

  /** Without `applyUpdates` an `append` field is overwritten: [3, 4]. */
  lemma DisabledLinkedListUpdate()
    ensures var s1 := WriteList(map[], User("1"), Friends, [User("2"), User("3")], Append, false);
      var s2 := WriteList(s1, User("1"), Friends, [User("3"), User("4")], Append, false);
      LinksAt(s2, User("1"), Friends) == [User("3"), User("4")]
  {
  }

  /** A scalar array: overwritten without `applyUpdates` ([2]); prepended
      ([2, 1]) or appended ([1, 2]) with it. */
  lemma ScalarArrayUpdates()
    ensures var s1 := WriteField(map[], User("1"), Friends, Array([Int(1)]), Append, false);
      && FieldOf(WriteField(s1, User("1"), Friends, Array([Int(2)]), Append, false), User("1"), Friends) == Some(Array([Int(2)]))
      && FieldOf(WriteField(s1, User("1"), Friends, Array([Int(2)]), Prepend, true), User("1"), Friends) == Some(Array([Int(2), Int(1)]))
      && FieldOf(WriteField(s1, User("1"), Friends, Array([Int(2)]), Append, true), User("1"), Friends) == Some(Array([Int(1), Int(2)]))
  {
    var s1 := WriteField(map[], User("1"), Friends, Array([Int(1)]), Append, false);
    assert FieldOf(s1, User("1"), Friends) == Some(Array([Int(1)]));
    assert [Int(2)] + [Int(1)] == [Int(2), Int(1)];
    assert [Int(1)] + [Int(2)] == [Int(1), Int(2)];
  }

  const AllUsers: string := "All_Users"

  /** The connection record holding the edges of user 1's friends. */
  function FriendsConnection(): Id {
    Nested(User("1"), Friends)
  }

  /** The fields the tests' subscriptions read of each user: `id` and
      `firstName`, and also `__typename` of a connection's abstract nodes. */
  function UserFields(connection: bool): set<string> {
    if connection then {TypenameField, KeyField, "firstName"} else {KeyField, "firstName"}
  }

  /** The `All_Users` declaration of the tests' subscriptions: user 1's
      `friends`, as a plain list or as a connection. */
  function UsersDecl(connection: bool, filters: map<string, Value>): ListDecl {
    ListDecl(AllUsers,
      if connection then FriendsConnection() else User("1"),
      if connection then EdgesKey else Friends,
      connection, "User", filters, UserFields(connection))
  }

  /** User 1's friends written as `members`, then subscription 0 registering
      `All_Users` on them under `parent`. */
  function Seeded(members: seq<Id>, connection: bool, filters: map<string, Value>, parent: Option<Id>): Cache {
    var s := if connection then WriteConnection(map[], FriendsConnection(), members, Replace, false)
             else WriteList(map[], User("1"), Friends, members, Replace, false);
    Subscribe(Cache(s, EmptyStack, map[], {}), 0, parent, UsersDecl(connection, filters))
  }

  lemma SeededFacts(members: seq<Id>, connection: bool, filters: map<string, Value>, parent: Option<Id>)
    ensures var c := Seeded(members, connection, filters, parent);
      && WellFormed(c)
      && ListKey(AllUsers, parent) in c.lists
      && c.lists[ListKey(AllUsers, parent)] == ListInfo(
           UsersDecl(connection, filters).record, UsersDecl(connection, filters).key, connection, "User",
           filters, UserFields(connection), {0})
      && ListSlots(c) == {Slot(UsersDecl(connection, filters).record, UsersDecl(connection, filters).key)}
      && Members(c, c.lists[ListKey(AllUsers, parent)]) == members
      && (forall d :: d in c.deps ==> d.sub == 0)
      && (forall m, f :: m in members && f in UserFields(connection) ==> 0 in Subscribers(c, m, f))
  {
    var s := if connection then WriteConnection(map[], FriendsConnection(), members, Replace, false)
             else WriteList(map[], User("1"), Friends, members, Replace, false);
    var c0 := Cache(s, EmptyStack, map[], {});
    var decl := UsersDecl(connection, filters);
    assert MembersOf(LinksAt(s, decl.record, decl.key), connection) == members;
    assert Seeded(members, connection, filters, parent).lists.Keys == {ListKey(AllUsers, parent)};
  }

  function Mary(): map<string, Value> {
    map["id" := Str("3"), "firstName" := Str("mary")]
  }

  /** `list('All_Users').append(...)`: mary joins at the tail and the
      subscriber is notified. */
  lemma AppendInList()
    ensures var c := Seeded([User("2")], false, map[], None);
      var r := ListAppend(c, ListHandle(AllUsers, None), Mary());
      && r.Ok?
      && Members(r.value.cache, c.lists[ListKey(AllUsers, None)]) == [User("2"), User("3")]
      && 0 in r.value.notified
  {
    SeededFacts([User("2")], false, map[], None);
    assert Identify("User", Mary()) == Some(User("3"));
  }

  /** `list('All_Users').prepend(...)`: mary joins at the head. */
  lemma PrependInList()
    ensures var c := Seeded([User("2")], false, map[], None);
      var r := ListPrepend(c, ListHandle(AllUsers, None), Mary());
      && r.Ok?
      && Members(r.value.cache, c.lists[ListKey(AllUsers, None)]) == [User("3"), User("2")]
      && 0 in r.value.notified
  {
    SeededFacts([User("2")], false, map[], None);
    assert Identify("User", Mary()) == Some(User("3"));
  }

  /** Appending to a connection wraps mary in an edge after jane's. */
  lemma AppendInConnection()
    ensures var c := Seeded([User("2")], true, map[], None);
      var r := ListAppend(c, ListHandle(AllUsers, None), Mary());
      && r.Ok?
      && Members(r.value.cache, c.lists[ListKey(AllUsers, None)]) == [User("2"), User("3")]
      && 0 in r.value.notified
  {
    SeededFacts([User("2")], true, map[], None);
    assert Identify("User", Mary()) == Some(User("3"));
  }

  /** The filter values the `friends` field declares in the gate tests. */
  function FooBar(): map<string, Value> {
    map["foo" := Str("bar")]
  }

  /** `when({must_not: {foo: 'not-bar'}})` lets the prepend through. */
  lemma MustNotPositive()
    ensures var c := Seeded([User("2")], false, FooBar(), None);
      var r := ListPrepend(c, ListHandle(AllUsers, None).When(Gate(map[], map["foo" := Str("not-bar")])), Mary());
      && r.Ok?
      && Members(r.value.cache, c.lists[ListKey(AllUsers, None)]) == [User("3"), User("2")]
      && 0 in r.value.notified
  {
    SeededFacts([User("2")], false, FooBar(), None);
    assert Identify("User", Mary()) == Some(User("3"));
  }

  /** `when({must_not: {foo: 'bar'}})` blocks it: nothing changes, nobody is notified. */
  lemma MustNotNegative()
    ensures var c := Seeded([User("2")], false, FooBar(), None);
      ListPrepend(c, ListHandle(AllUsers, None).When(Gate(map[], map["foo" := Str("bar")])), Mary()) == Ok(Outcome(c, {}))
  {
    SeededFacts([User("2")], false, FooBar(), None);
    assert !Passes(Gate(map[], map["foo" := Str("bar")]), FooBar()) by {
      assert "foo" in Gate(map[], map["foo" := Str("bar")]).mustNot;
    }
  }

  /** `when({must: {foo: 'bar'}})` lets the prepend through. */
  lemma MustPositive()
    ensures var c := Seeded([User("2")], false, FooBar(), None);
      var r := ListPrepend(c, ListHandle(AllUsers, None).When(Gate(map["foo" := Str("bar")], map[])), Mary());
      && r.Ok?
      && Members(r.value.cache, c.lists[ListKey(AllUsers, None)]) == [User("3"), User("2")]
      && 0 in r.value.notified
  {
    SeededFacts([User("2")], false, FooBar(), None);
    assert Identify("User", Mary()) == Some(User("3"));
  }

  /** `when({must: {foo: 'not-bar'}})` blocks it. */
  lemma MustNegative()
    ensures var c := Seeded([User("2")], false, FooBar(), None);
      ListPrepend(c, ListHandle(AllUsers, None).When(Gate(map["foo" := Str("not-bar")], map[])), Mary()) == Ok(Outcome(c, {}))
  {
    SeededFacts([User("2")], false, FooBar(), None);
    assert !Passes(Gate(map["foo" := Str("not-bar")], map[]), FooBar()) by {
      assert "foo" in Gate(map["foo" := Str("not-bar")], map[]).must;
    }
  }

  function Key(id: string): map<string, Value> {
    map["id" := Str(id)]
  }

  /** `list.remove({id: '2'})` on a plain list: the list empties, the
      subscriber is notified and no longer watches user 2. */
  lemma RemoveFromList()
    ensures var c := Seeded([User("2")], false, map[], None);
      var r := Remove(c, ListHandle(AllUsers, None), Key("2"));
      && r.Ok?
      && Members(r.value.cache, c.lists[ListKey(AllUsers, None)]) == []
      && 0 in r.value.notified
      && Subscribers(r.value.cache, User("2"), "firstName") == {}
  {
    SeededFacts([User("2")], false, map[], None);
    assert Identify("User", Key("2")) == Some(User("2"));
  }

  /** The textual id of jane's edge in user 1's `friends` connection. */
  lemma JaneEdgeName()
    ensures Render(Edge(FriendsConnection(), 0, User("2"))) == "User:1.friends.edges[0]#User:2"
  {
  }

  /** Removing the head of a list whose other members differ from it leaves
      exactly the others, and re-notifies the list's subscribers. */
  lemma RemoveHead(c: Cache, h: Handle, data: map<string, Value>, x: Id, rest: seq<Id>)
    requires WellFormed(c) && ListKey(h.name, h.parent) in c.lists
    requires var info := c.lists[ListKey(h.name, h.parent)];
      && Passes(h.gate, info.filters) && Identify(info.typename, data) == Some(x)
      && Members(c, info) == [x] + rest && x !in rest
    ensures var info := c.lists[ListKey(h.name, h.parent)];
      var r := Remove(c, h, data);
      && r.Ok?
      && Members(r.value.cache, info) == rest
      && info.subscribers <= r.value.notified
  {
    WithoutCons(x, rest, x);
    WithoutAbsent(rest, x);
  }

  /** When only the list's own subscriptions depend on anything, removing a
      member leaves nobody watching it, and a connection loses the edge record
      that wrapped it. */
  lemma RemoveCleansUp(c: Cache, h: Handle, data: map<string, Value>, x: Id, k: string, i: nat)
    requires ListKey(h.name, h.parent) in c.lists
    requires var info := c.lists[ListKey(h.name, h.parent)];
      && Passes(h.gate, info.filters) && Identify(info.typename, data) == Some(x)
      && (forall d :: d in c.deps ==> d.sub in info.subscribers)
      && k in info.fields && Slot(x, k) !in ListSlots(c)
      && info.connection && i < |LinksAt(c.records, info.record, info.key)|
      && LinksAt(c.records, info.record, info.key)[i] == Edge(info.record, i, x)
    ensures var r := Remove(c, h, data);
      && r.Ok?
      && Subscribers(r.value.cache, x, k) == {}
      && Edge(c.lists[ListKey(h.name, h.parent)].record, i, x) !in r.value.cache.records
  {
    var info := c.lists[ListKey(h.name, h.parent)];
    var r := Remove(c, h, data).value.cache;
    assert Edge(info.record, i, x) in EdgesOf(LinksAt(c.records, info.record, info.key), x, info.connection);
  }

  /** `list.remove({id: '2'})` on a connection: jane goes and the
      subscriber is notified. */
  lemma RemoveFromConnection()
    ensures var c := Seeded([User("2"), User("3")], true, map[], None);
      var r := Remove(c, ListHandle(AllUsers, None), Key("2"));
      && r.Ok?
      && Members(r.value.cache, c.lists[ListKey(AllUsers, None)]) == [User("3")]
      && 0 in r.value.notified
  {
    var c := Seeded([User("2"), User("3")], true, map[], None);
    SeededFacts([User("2"), User("3")], true, map[], None);
    assert Identify("User", Key("2")) == Some(User("2"));
    RemoveHead(c, ListHandle(AllUsers, None), Key("2"), User("2"), [User("3")]);
  }

  /** After the removal jane is no longer watched and the edge record that
      wrapped her is deleted. */
  lemma RemoveFromConnectionCleansUp()
    ensures var c := Seeded([User("2"), User("3")], true, map[], None);
      var r := Remove(c, ListHandle(AllUsers, None), Key("2"));
      && r.Ok?
      && Subscribers(r.value.cache, User("2"), "firstName") == {}
      && Edge(FriendsConnection(), 0, User("2")) !in r.value.cache.records
  {
    var c := Seeded([User("2"), User("3")], true, map[], None);
    SeededFacts([User("2"), User("3")], true, map[], None);
    assert Identify("User", Key("2")) == Some(User("2"));
    var edges := EdgesFor(FriendsConnection(), [User("2"), User("3")]);
    assert LinksAt(c.records, FriendsConnection(), EdgesKey) == edges;
    assert edges[0] == Edge(FriendsConnection(), 0, User("2"));
    RemoveCleansUp(c, ListHandle(AllUsers, None), Key("2"), User("2"), "firstName", 0);
  }

  /** A record every dependency of which belongs to subscription 0, and which
      subscription 0 watches, is watched by subscription 0 alone. */
  lemma OnlySubscriber(c: Cache, y: Id, k: string)
    requires forall d :: d in c.deps ==> d.sub == 0
    requires 0 in Subscribers(c, y, k)
    ensures Subscribers(c, y, k) == {0}
  {
  }

  /** Removing `x` from a list leaves the watchers of any other plain record
      as they were. */
  lemma RemoveKeeps(c: Cache, h: Handle, data: map<string, Value>, x: Id, y: Id, k: string)
    requires ListKey(h.name, h.parent) in c.lists
    requires var info := c.lists[ListKey(h.name, h.parent)];
      Passes(h.gate, info.filters) && Identify(info.typename, data) == Some(x)
    requires y != x && !y.Edge?
    requires forall d :: d in c.deps ==> d.sub == 0
    requires 0 in Subscribers(c, y, k)
    ensures Remove(c, h, data).Ok? && Subscribers(Remove(c, h, data).value.cache, y, k) == {0}
  {
    OnlySubscriber(c, y, k);
  }

  /** Removing jane leaves the subscription to mary in place. */
  lemma RemoveFromConnectionKeepsOthers()
    ensures var c := Seeded([User("2"), User("3")], true, map[], None);
      var r := Remove(c, ListHandle(AllUsers, None), Key("2"));
      && r.Ok?
      && Subscribers(r.value.cache, User("3"), "firstName") == {0}
  {
    var c := Seeded([User("2"), User("3")], true, map[], None);
    SeededFacts([User("2"), User("3")], true, map[], None);
    assert Identify("User", Key("2")) == Some(User("2"));
    RemoveKeeps(c, ListHandle(AllUsers, None), Key("2"), User("2"), User("3"), "firstName");
  }

  /** Deleting the only member of a list removes its record, empties the list
      and re-notifies the list's subscribers. */
  lemma DeleteOnly(c: Cache, k: ListKey, x: Id)
    requires WellFormed(c) && k in c.lists && Members(c, c.lists[k]) == [x]
    ensures var r := Delete(c, x);
      && x !in r.cache.records
      && Members(r.cache, c.lists[k]) == []
      && c.lists[k].subscribers <= r.notified
  {
    var m := Members(Delete(c, x).cache, c.lists[k]);
    if |m| > 0 {
      assert false;
    }
  }

  /** `cache.delete('User:2')`: the record is gone, the list empties and its
      subscriber is notified. */
  lemma DeleteNode()
    ensures var c := Seeded([User("2")], false, map[], None);
      var r := Delete(c, User("2"));
      && User("2") !in r.cache.records
      && Members(r.cache, c.lists[ListKey(AllUsers, None)]) == []
      && 0 in r.notified
  {
    SeededFacts([User("2")], false, map[], None);
    DeleteOnly(Seeded([User("2")], false, map[], None), ListKey(AllUsers, None), User("2"));
  }

  /** Deleting a node of a connection empties the connection as well. */
  lemma DeleteNodeFromConnection()
    ensures var c := Seeded([User("2")], true, map[], None);
      var r := Delete(c, User("2"));
      && User("2") !in r.cache.records
      && Members(r.cache, c.lists[ListKey(AllUsers, None)]) == []
      && 0 in r.notified
  {
    SeededFacts([User("2")], true, map[], None);
    DeleteOnly(Seeded([User("2")], true, map[], None), ListKey(AllUsers, None), User("2"));
  }

  /** Layers work on any cache with a sound stack, including one that lost
      its invariant: after deleting user 1, who holds the registered list,
      the list's subscriber no longer depends on its link, yet a layer on
      user 1 still overrides the read and deleting it restores every read. */
  lemma LayerAfterHolderDeleted()
    ensures var d := Delete(Seeded([User("2")], false, map[], Some(User("1"))), User("1")).cache;
      && !WellFormed(d)
      && Layers.Valid(d.stack)
      && var (added, lid) := AddLayer(d, User("1"), map["firstName" := Str("Alex")]);
         && Read(added.cache, User("1"), "firstName") == Some(Str("Alex"))
         && forall i, k :: Read(DeleteLayer(added.cache, lid).cache, i, k) == Read(d, i, k)
  {
    var c := Seeded([User("2")], false, map[], Some(User("1")));
    SeededFacts([User("2")], false, map[], Some(User("1")));
    var d := Delete(c, User("1")).cache;
    assert 0 !in Subscribers(d, User("1"), Friends);
    DeleteLayerRestores(d, User("1"), map["firstName" := Str("Alex")]);
  }

  /** The writes of the `id` fields of new users with ids `keys`. */
  function UserWrites(keys: seq<string>): (ws: seq<FieldWrite>)
    ensures |ws| == |keys|
    ensures forall i :: 0 <= i < |ws| ==> ws[i].SetScalar?
  {
    seq(|keys|, i requires 0 <= i < |keys| => SetScalar(User(keys[i]), "id", Str(keys[i]), Replace))
  }

  /** The root field whose selection the `cache.write` of new users fills:
      `newUser` for `insert` and `remove`, whose directive sits on that
      field, and `deleteUser` for `delete`, whose directive sits on the
      selected `id`. */
  function CarrierField(op: Operation): string {
    if op.action.DeleteAction? then "deleteUser" else "newUser"
  }

  /** The root link that write stores: the one new user for object data, the
      list of new users for array data. */
  function Carrier(op: Operation, keys: seq<string>): (w: FieldWrite)
    ensures (w.SetLinked? || w.SetList?) && w.record == Root && w.key == CarrierField(op)
  {
    if |keys| == 1 then SetLinked(Root, CarrierField(op), User(keys[0]))
    else SetList(Root, CarrierField(op), EntityIds("User", keys), Replace)
  }

  /** A `cache.write` of new users with ids `keys`: their `id` fields, the
      root link to them, and the operation `op` on lists of users. */
  function NewUsers(op: Operation, keys: seq<string>): seq<FieldWrite> {
    UserWrites(keys) + [Carrier(op, keys), Operate(op, "User", keys)]
  }

  /** The list under user 1 that `op` names is not held in the root field
      the write of new users fills. */
  predicate Apart(c: Cache, op: Operation)
    requires ListKey(op.list, Some(User("1"))) in c.lists
  {
    var info := c.lists[ListKey(op.list, Some(User("1")))];
    Slot(info.record, info.key) != Slot(Root, CarrierField(op))
  }

  /** An operation on the `All_Users` list registered under user 1. */
  function OnUsers(action: Action, when: Gate): Operation {
    Operation(action, AllUsers, Literal(User("1")), when)
  }

  /** The list registered under user 1, as `Seeded` left it. */
  function UnderUser1(members: seq<Id>, filters: map<string, Value>): (Cache, ListInfo) {
    var c := Seeded(members, false, filters, Some(User("1")));
    (c, ListInfo(User("1"), Friends, false, "User", filters, UserFields(false), {0}))
  }

  /** Running a batch in two parts is running the first part and then, if it
      succeeds, the second on its result. */
  lemma {:induction false} RunThen(c: Cache, variables: map<string, Id>, a: seq<FieldWrite>, b: seq<FieldWrite>, applyUpdates: bool)
    ensures Run(c, variables, a + b, applyUpdates)
         == if Run(c, variables, a, applyUpdates).Ok? then Run(Run(c, variables, a, applyUpdates).value, variables, b, applyUpdates)
            else Run(c, variables, a, applyUpdates)
    decreases |a|
  {
    if |a| > 0 {
      assert (a + b)[0] == a[0];
      assert (a + b)[1..] == a[1..] + b;
      var c1 := Apply(c, variables, a[0], applyUpdates);
      if c1.Ok? {
        RunThen(c1.value, variables, a[1..], b, applyUpdates);
      }
    } else {
      assert a + b == b;
    }
  }

  /** Storing the root link to the new users points it at them and changes
      nothing else but that link. */
  lemma CarrierWrite(c: Cache, op: Operation, keys: seq<string>)
    ensures var c1 := Apply(c, map[], Carrier(op, keys), false);
      && c1.Ok?
      && c1.value.lists == c.lists
      && c1.value.deps == c.deps
      && LinksAt(c1.value.records, Root, CarrierField(op)) == EntityIds("User", keys)
      && forall i, k :: Slot(i, k) != Slot(Root, CarrierField(op)) ==> LinkOf(c1.value.records, i, k) == LinkOf(c.records, i, k)
  {
    if |keys| == 1 {
      assert EntityIds("User", keys) == [User(keys[0])];
    } else {
      CombineOverwrites(LinksAt(c.records, Root, CarrierField(op)), EntityIds("User", keys), Replace, false, false);
    }
  }

  /** A batch of one write is that write. */
  lemma RunOne(c: Cache, w: FieldWrite)
    ensures Run(c, map[], [w], false) == Apply(c, map[], w, false)
  {
    assert [w][1..] == [];
  }

  /** Writing the users, which moves no list, and the root link to them
      points that link at them and changes no other link. */
  lemma RunUsersAndCarrier(c: Cache, op: Operation, keys: seq<string>)
    ensures var c1 := Run(c, map[], UserWrites(keys) + [Carrier(op, keys)], false);
      && c1.Ok?
      && c1.value.lists == c.lists
      && c1.value.deps == c.deps
      && LinksAt(c1.value.records, Root, CarrierField(op)) == EntityIds("User", keys)
      && forall i, k :: Slot(i, k) != Slot(Root, CarrierField(op)) ==> LinkOf(c1.value.records, i, k) == LinkOf(c.records, i, k)
  {
    RunConcat(c, UserWrites(keys), Carrier(op, keys), false);
    CarrierWrite(Run(c, map[], UserWrites(keys), false).value, op, keys);
  }

  /** The write of new users succeeds exactly when its operation does on the
      cache with the users and the root link to them written, and leaves what
      the operation leaves. */
  lemma WriteNewUsers(c: Cache, op: Operation, keys: seq<string>)
    ensures var c1 := Run(c, map[], UserWrites(keys) + [Carrier(op, keys)], false);
      var r := Write(c, map[], NewUsers(op, keys), false);
      var r1 := ApplyOperation(c1.value, map[], op, "User", keys);
      && c1.Ok?
      && c1.value.lists == c.lists
      && LinksAt(c1.value.records, Root, CarrierField(op)) == EntityIds("User", keys)
      && (r.Ok? <==> r1.Ok?)
      && (r.Ok? ==> r.value.cache == r1.value)
  {
    var ws := UserWrites(keys) + [Carrier(op, keys)];
    RunUsersAndCarrier(c, op, keys);
    WriteEndingInOperation(c, ws, op, keys);
    assert NewUsers(op, keys) == ws + [Operate(op, "User", keys)];
  }

  /** A write whose batch ends in an operation on users succeeds exactly when
      that operation does on what the rest of the batch leaves, and leaves
      what the operation leaves. */
  lemma WriteEndingInOperation(c: Cache, ws: seq<FieldWrite>, op: Operation, keys: seq<string>)
    requires Run(c, map[], ws, false).Ok?
    ensures var r := Write(c, map[], ws + [Operate(op, "User", keys)], false);
      var r1 := ApplyOperation(Run(c, map[], ws, false).value, map[], op, "User", keys);
      && (r.Ok? <==> r1.Ok?)
      && (r.Ok? ==> r.value.cache == r1.value)
  {
    RunLast(c, ws, Operate(op, "User", keys));
  }

  /** Running the batch first writes the users and the root link to them,
      which moves no list held elsewhere, then applies the operation. */
  lemma RunNewUsers(c: Cache, op: Operation, keys: seq<string>)
    ensures var c1 := Run(c, map[], UserWrites(keys) + [Carrier(op, keys)], false);
      && c1.Ok?
      && Run(c, map[], NewUsers(op, keys), false) == ApplyOperation(c1.value, map[], op, "User", keys)
      && c1.value.lists == c.lists
      && c1.value.deps == c.deps
      && LinksAt(c1.value.records, Root, CarrierField(op)) == EntityIds("User", keys)
      && forall info: ListInfo :: Slot(info.record, info.key) != Slot(Root, CarrierField(op)) ==> Members(c1.value, info) == Members(c, info)
  {
    var w := Carrier(op, keys);
    var o := Operate(op, "User", keys);
    RunUsersAndCarrier(c, op, keys);
    var c1 := Run(c, map[], UserWrites(keys) + [w], false).value;
    RunLast(c, UserWrites(keys) + [w], o);
    assert NewUsers(op, keys) == (UserWrites(keys) + [w]) + [o];
    MembersElsewhere(c, c1, Slot(Root, CarrierField(op)));
  }

  /** A batch that succeeds up to its last write ends with that write. */
  lemma RunLast(c: Cache, ws: seq<FieldWrite>, w: FieldWrite)
    requires Run(c, map[], ws, false).Ok?
    ensures Run(c, map[], ws + [w], false) == Apply(Run(c, map[], ws, false).value, map[], w, false)
  {
    RunThen(c, map[], ws, [w], false);
    RunOne(Run(c, map[], ws, false).value, w);
  }

  /** The members of a list held outside the one link that changed are as
      they were. */
  lemma MembersElsewhere(c: Cache, c': Cache, slot: Slot)
    requires forall i, k :: Slot(i, k) != slot ==> LinkOf(c'.records, i, k) == LinkOf(c.records, i, k)
    ensures forall info: ListInfo :: Slot(info.record, info.key) != slot ==> Members(c', info) == Members(c, info)
  {
    forall info: ListInfo | Slot(info.record, info.key) != slot
      ensures Members(c', info) == Members(c, info)
    {
      assert LinkOf(c'.records, info.record, info.key) == LinkOf(c.records, info.record, info.key);
    }
  }

  /** Running scalar writes and then one more write is running the scalars,
      which moves no link, and applying that write to the result. */
  lemma {:induction false} RunConcat(c: Cache, writes: seq<FieldWrite>, last: FieldWrite, applyUpdates: bool)
    requires forall i :: 0 <= i < |writes| ==> writes[i].SetScalar?
    ensures Run(c, map[], writes, applyUpdates).Ok?
    ensures Run(c, map[], writes + [last], applyUpdates) == Apply(Run(c, map[], writes, applyUpdates).value, map[], last, applyUpdates)
    ensures Run(c, map[], writes, applyUpdates).value.lists == c.lists
    ensures Run(c, map[], writes, applyUpdates).value.deps == c.deps
    ensures forall i, k :: LinkOf(Run(c, map[], writes, applyUpdates).value.records, i, k) == LinkOf(c.records, i, k)
    decreases |writes|
  {
    if |writes| == 0 {
      assert writes + [last] == [last];
    } else {
      assert (writes + [last])[1..] == writes[1..] + [last];
      RunConcat(Apply(c, map[], writes[0], applyUpdates).value, writes[1..], last, applyUpdates);
    }
  }


  /** Writing the new users' `id` fields touches nothing but `id` fields. */
  lemma {:induction false} UserWritesTouch(lists: map<ListKey, ListInfo>, keys: seq<string>, slot: Slot)
    ensures TouchedBy(lists, map[], UserWrites(keys), slot) ==> slot.key == KeyField
    decreases |keys|
  {
    if |keys| > 0 {
      assert UserWrites(keys)[1..] == UserWrites(keys[1..]);
      UserWritesTouch(lists, keys[1..], slot);
    }
  }

  /** A batch of new users carrying an `insert` or `remove` on a list
      registered under user 1 leaves the root link pointing at the new users. */
  lemma WriteStoresCarrier(c: Cache, op: Operation, keys: seq<string>)
    requires op.parent == Literal(User("1")) && !op.action.DeleteAction?
    requires ListKey(op.list, Some(User("1"))) in c.lists && Apart(c, op)
    ensures var r := Write(c, map[], NewUsers(op, keys), false);
      r.Ok? && LinksAt(r.value.cache.records, Root, CarrierField(op)) == EntityIds("User", keys)
  {
    WriteNewUsers(c, op, keys);
    OperationKeepsLink(Run(c, map[], UserWrites(keys) + [Carrier(op, keys)], false).value, op, keys, Root, CarrierField(op));
  }

  /** An `insert` or `remove` on a list registered under user 1 succeeds and
      keeps every link of a non-edge record outside that list. */
  lemma OperationKeepsLink(c: Cache, op: Operation, keys: seq<string>, i: Id, k: string)
    requires op.parent == Literal(User("1")) && !op.action.DeleteAction?
    requires ListKey(op.list, Some(User("1"))) in c.lists
    requires !i.Edge? && Slot(i, k) != Slot(c.lists[ListKey(op.list, Some(User("1")))].record, c.lists[ListKey(op.list, Some(User("1")))].key)
    ensures var r := ApplyOperation(c, map[], op, "User", keys);
      r.Ok? && LinkOf(r.value.records, i, k) == LinkOf(c.records, i, k) && LinksAt(r.value.records, i, k) == LinksAt(c.records, i, k)
  {
  }

  /** A batch of new users carrying an `insert` or `remove` on the list
      registered under user 1 changes no field other than `id` and no link
      other than the root link to the new users and the list's own, outside
      edge records. */
  lemma ListOperationLeavesOthers(c: Cache, op: Operation, keys: seq<string>, y: Id, k: string)
    requires op.parent == Literal(User("1")) && !op.action.DeleteAction?
    requires ListKey(op.list, Some(User("1"))) in c.lists && Apart(c, op)
    requires !y.Edge? && k != KeyField && Slot(y, k) != Slot(Root, CarrierField(op))
    requires Slot(y, k) != Slot(c.lists[ListKey(op.list, Some(User("1")))].record, c.lists[ListKey(op.list, Some(User("1")))].key)
    ensures var r := Write(c, map[], NewUsers(op, keys), false);
      && r.Ok?
      && LinksAt(r.value.cache.records, Root, CarrierField(op)) == EntityIds("User", keys)
      && FieldOf(r.value.cache.records, y, k) == FieldOf(c.records, y, k)
      && LinkOf(r.value.cache.records, y, k) == LinkOf(c.records, y, k)
  {
    WriteStoresCarrier(c, op, keys);
    var slot := Slot(y, k);
    var w := Carrier(op, keys);
    var o := Operate(op, "User", keys);
    UserWritesTouch(c.lists, keys, slot);
    assert !Touches(c.lists, map[], w, slot);
    assert !Touches(c.lists, map[], o, slot);
    assert [w, o][1..] == [o] && [o][1..] == [];
    assert !TouchedBy(c.lists, map[], [o], slot);
    assert !TouchedBy(c.lists, map[], [w, o], slot);
    TouchedByConcat(c.lists, map[], UserWrites(keys), [w, o], slot);
    assert !TouchedBy(c.lists, map[], NewUsers(op, keys), slot);
  }

  /** A batch of new users carrying an `insert` or `remove` on a list
      registered under user 1 acts on that list as the operation's contract
      says, with the list's members before the batch. */
  lemma WriteListOperation(c: Cache, op: Operation, keys: seq<string>)
    requires op.parent == Literal(User("1")) && !op.action.DeleteAction?
    requires ListKey(op.list, Some(User("1"))) in c.lists && Apart(c, op)
    ensures var info := c.lists[ListKey(op.list, Some(User("1")))];
      var r := Write(c, map[], NewUsers(op, keys), false);
      var ids := EntityIds("User", keys);
      && r.Ok?
      && (!Passes(op.when, info.filters) ==> Members(r.value.cache, info) == Members(c, info))
      && (Passes(op.when, info.filters) && op.action.InsertAction? && Placement(op.action.position) == Last ==>
            Members(r.value.cache, info) == Members(c, info) + ids)
      && (Passes(op.when, info.filters) && op.action.InsertAction? && Placement(op.action.position) == First ==>
            Members(r.value.cache, info) == Reverse(ids) + Members(c, info))
      && (Passes(op.when, info.filters) && op.action.RemoveAction? ==>
            && (forall y :: y in Members(r.value.cache, info) <==> y in Members(c, info) && y !in ids)
            && r.value.cache.deps <= c.deps
            && (forall y, s, k :: y in ids && s in info.subscribers && k in info.fields && Slot(y, k) !in ListSlots(c) ==>
                  s !in Subscribers(r.value.cache, y, k)))
  {
    RunNewUsers(c, op, keys);
  }

  /** A batch of new users carrying `delete` removes their records and their
      memberships. */
  lemma WriteDeleteOperation(c: Cache, op: Operation, keys: seq<string>)
    requires op.action == DeleteAction("User")
    ensures var r := Write(c, map[], NewUsers(op, keys), false);
      var ids := EntityIds("User", keys);
      && r.Ok?
      && (forall y :: y in ids ==> y !in r.value.cache.records)
      && (forall y, info :: y in ids ==> y !in Members(r.value.cache, info))
      && (forall y, info :: y in Members(r.value.cache, info) ==> y in Members(c, info))
  {
    RunNewUsers(c, op, keys);
    var c1 := Run(c, map[], UserWrites(keys) + [Carrier(op, keys)], false).value;
    var c2 := ApplyOperation(c1, map[], op, "User", keys).value;
    forall info: ListInfo | Slot(info.record, info.key) == Slot(Root, CarrierField(op))
      ensures forall y :: y !in Members(c2, info)
    {
      CarrierMembers(c1, op, keys, info);
    }
  }

  /** A list held in the root link to the new users has exactly them as
      members. */
  lemma CarrierMembers(c: Cache, op: Operation, keys: seq<string>, info: ListInfo)
    requires LinksAt(c.records, Root, CarrierField(op)) == EntityIds("User", keys)
    requires Slot(info.record, info.key) == Slot(Root, CarrierField(op))
    ensures Members(c, info) == EntityIds("User", keys)
  {
  }

  /** The list registered under user 1 in `UnderUser1`. */
  lemma UnderUser1Facts(members: seq<Id>, filters: map<string, Value>)
    ensures var (c, info) := UnderUser1(members, filters);
      && ListKey(AllUsers, Some(User("1"))) in c.lists
      && c.lists[ListKey(AllUsers, Some(User("1")))] == info
      && Members(c, info) == members
      && ListSlots(c) == {Slot(User("1"), Friends)}
      && (forall d :: d in c.deps ==> d.sub == 0)
  {
    SeededFacts(members, false, filters, Some(User("1")));
  }

  /** A passing `insert` of new users on the list under user 1 leaves exactly
      the expected members: the new users after the old ones for `last`, in
      reverse order before them for `first`. */
  lemma InsertedBy(c: Cache, op: Operation, keys: seq<string>, expected: seq<Id>)
    requires op.parent == Literal(User("1")) && ListKey(op.list, Some(User("1"))) in c.lists && Apart(c, op)
    requires var info := c.lists[ListKey(op.list, Some(User("1")))];
      && Passes(op.when, info.filters)
      && op.action.InsertAction?
      && ((Placement(op.action.position) == Last && expected == Members(c, info) + EntityIds("User", keys))
          || (Placement(op.action.position) == First && expected == Reverse(EntityIds("User", keys)) + Members(c, info)))
    ensures var r := Write(c, map[], NewUsers(op, keys), false);
      r.Ok? && Members(r.value.cache, c.lists[ListKey(op.list, Some(User("1")))]) == expected
  {
    WriteListOperation(c, op, keys);
  }

  /** The `insert` operation of a new user links it into the list (`append operation`). */
  lemma InsertOperation()
    ensures var (c, info) := UnderUser1([], map[]);
      var r := Write(c, map[], NewUsers(OnUsers(InsertAction(None), Always), ["3"]), false);
      && r.Ok?
      && Members(r.value.cache, info) == [User("3")]
  {
    var (c, info) := UnderUser1([], map[]);
    UnderUser1Facts([], map[]);
    assert EntityIds("User", ["3"]) == [User("3")];
    InsertedBy(c, OnUsers(InsertAction(None), Always), ["3"], [User("3")]);
  }

  /** Inserting from a list of two new users links both (`append from list`). */
  lemma InsertOperationFromList()
    ensures var (c, info) := UnderUser1([], map[]);
      var r := Write(c, map[], NewUsers(OnUsers(InsertAction(None), Always), ["3", "4"]), false);
      && r.Ok?
      && Members(r.value.cache, info) == [User("3"), User("4")]
  {
    var (c, info) := UnderUser1([], map[]);
    UnderUser1Facts([], map[]);
    assert EntityIds("User", ["3", "4"]) == [User("3"), User("4")];
    InsertedBy(c, OnUsers(InsertAction(None), Always), ["3", "4"], [User("3"), User("4")]);
  }

  /** The filter values of the list in the `when` operation tests. */
  function ValueFoo(): map<string, Value> {
    map["value" := Str("foo")]
  }

  /** `when({must: {value: 'not-foo'}})`. */
  function MustValueNotFoo(): Gate {
    Gate(map["value" := Str("not-foo")], map[])
  }

  lemma MustValueNotFooFails()
    ensures !Passes(MustValueNotFoo(), ValueFoo())
  {
    assert "value" in MustValueNotFoo().must;
  }

  /** An `insert` whose `when` fails leaves the list empty (`append when`). */
  lemma InsertWhenBlocked()
    ensures var (c, info) := UnderUser1([], ValueFoo());
      var r := Write(c, map[], NewUsers(OnUsers(InsertAction(None), MustValueNotFoo()), ["3"]), false);
      && r.Ok?
      && Members(r.value.cache, info) == []
  {
    var (c, info) := UnderUser1([], ValueFoo());
    UnderUser1Facts([], ValueFoo());
    MustValueNotFooFails();
    WriteListOperation(c, OnUsers(InsertAction(None), MustValueNotFoo()), ["3"]);
  }

  /** The same with `position: 'first'` (`prepend when`). */
  lemma PrependWhenBlocked()
    ensures var (c, info) := UnderUser1([], ValueFoo());
      var r := Write(c, map[], NewUsers(OnUsers(InsertAction(Some(First)), MustValueNotFoo()), ["3"]), false);
      && r.Ok?
      && Members(r.value.cache, info) == []
  {
    var (c, info) := UnderUser1([], ValueFoo());
    UnderUser1Facts([], ValueFoo());
    MustValueNotFooFails();
    WriteListOperation(c, OnUsers(InsertAction(Some(First)), MustValueNotFoo()), ["3"]);
  }

  /** `position: 'first'` puts the new user ahead of jane (`prepend operation`). */
  lemma PrependOperation()
    ensures var (c, info) := UnderUser1([User("2")], map[]);
      var r := Write(c, map[], NewUsers(OnUsers(InsertAction(Some(First)), Always), ["3"]), false);
      && r.Ok?
      && Members(r.value.cache, info) == [User("3"), User("2")]
  {
    var (c, info) := UnderUser1([User("2")], map[]);
    UnderUser1Facts([User("2")], map[]);
    assert Reverse(EntityIds("User", ["3"])) == [User("3")] by {
      assert EntityIds("User", ["3"]) == [User("3")];
      assert Reverse([User("3")]) == Reverse([]) + [User("3")];
    }
    InsertedBy(c, OnUsers(InsertAction(Some(First)), Always), ["3"], [User("3"), User("2")]);
  }

  /** A list none of whose members survives is empty. */
  lemma NoneLeft(s: seq<Id>)
    ensures (forall y :: y !in s) ==> s == []
  {
    if s != [] {
      assert s[0] in s;
    }
  }

  /** A `remove` that passes its gate, or a `delete`, naming every member of
      the list under user 1 leaves that list empty. */
  lemma EmptiedBy(c: Cache, op: Operation, keys: seq<string>)
    requires op.parent == Literal(User("1")) && ListKey(op.list, Some(User("1"))) in c.lists
    requires op.action == RemoveAction ==> Apart(c, op)
    requires var info := c.lists[ListKey(op.list, Some(User("1")))];
      && ((op.action == RemoveAction && Passes(op.when, info.filters)) || op.action == DeleteAction("User"))
      && (forall y :: y in Members(c, info) ==> y in EntityIds("User", keys))
    ensures var r := Write(c, map[], NewUsers(op, keys), false);
      && r.Ok?
      && Members(r.value.cache, c.lists[ListKey(op.list, Some(User("1")))]) == []
  {
    var r := Write(c, map[], NewUsers(op, keys), false);
    if op.action == RemoveAction {
      WriteListOperation(c, op, keys);
    } else {
      WriteDeleteOperation(c, op, keys);
    }
    NoneLeft(Members(r.value.cache, c.lists[ListKey(op.list, Some(User("1")))]));
  }

  /** When only the list's own subscriptions depend on anything, the users a
      passing `remove` names are watched by nobody afterwards. */
  lemma UnwatchedBy(c: Cache, op: Operation, keys: seq<string>, y: Id, k: string)
    requires op.parent == Literal(User("1")) && op.action == RemoveAction
    requires ListKey(op.list, Some(User("1"))) in c.lists && Apart(c, op)
    requires var info := c.lists[ListKey(op.list, Some(User("1")))];
      && Passes(op.when, info.filters)
      && (forall d :: d in c.deps ==> d.sub in info.subscribers)
      && y in EntityIds("User", keys) && k in info.fields && Slot(y, k) !in ListSlots(c)
    ensures var r := Write(c, map[], NewUsers(op, keys), false);
      r.Ok? && Subscribers(r.value.cache, y, k) == {}
  {
    WriteListOperation(c, op, keys);
  }

  /** The `remove` operation unlinks jane (`remove operation`). */
  lemma RemoveOperation()
    ensures var (c, info) := UnderUser1([User("2")], map[]);
      var r := Write(c, map[], NewUsers(OnUsers(RemoveAction, Always), ["2"]), false);
      && r.Ok?
      && Members(r.value.cache, info) == []
  {
    var (c, info) := UnderUser1([User("2")], map[]);
    UnderUser1Facts([User("2")], map[]);
    assert EntityIds("User", ["2"]) == [User("2")];
    EmptiedBy(c, OnUsers(RemoveAction, Always), ["2"]);
  }

  /** Removing a list of users unlinks each (`remove operation from list`). */
  lemma RemoveOperationFromList()
    ensures var (c, info) := UnderUser1([User("2"), User("3")], map[]);
      var r := Write(c, map[], NewUsers(OnUsers(RemoveAction, Always), ["2", "3"]), false);
      && r.Ok?
      && Members(r.value.cache, info) == []
  {
    var (c, info) := UnderUser1([User("2"), User("3")], map[]);
    UnderUser1Facts([User("2"), User("3")], map[]);
    assert EntityIds("User", ["2", "3"]) == [User("2"), User("3")];
    EmptiedBy(c, OnUsers(RemoveAction, Always), ["2", "3"]);
  }

  /** After that removal nobody watches jane's `firstName`. */
  lemma RemoveOperationFromListUnwatches()
    ensures var (c, info) := UnderUser1([User("2"), User("3")], map[]);
      var r := Write(c, map[], NewUsers(OnUsers(RemoveAction, Always), ["2", "3"]), false);
      && r.Ok?
      && Subscribers(r.value.cache, User("2"), "firstName") == {}
  {
    var (c, info) := UnderUser1([User("2"), User("3")], map[]);
    UnderUser1Facts([User("2"), User("3")], map[]);
    assert EntityIds("User", ["2", "3"])[0] == User("2");
    UnwatchedBy(c, OnUsers(RemoveAction, Always), ["2", "3"], User("2"), "firstName");
  }

  /** The `delete` operation removes user 2's record and so empties the
      list (`delete operation`). */
  lemma DeleteOperation()
    ensures var (c, info) := UnderUser1([User("2")], map[]);
      var r := Write(c, map[], NewUsers(OnUsers(DeleteAction("User"), Always), ["2"]), false);
      && r.Ok?
      && Members(r.value.cache, info) == []
      && User("2") !in r.value.cache.records
  {
    var (c, info) := UnderUser1([User("2")], map[]);
    UnderUser1Facts([User("2")], map[]);
    assert EntityIds("User", ["2"]) == [User("2")];
    EmptiedBy(c, OnUsers(DeleteAction("User"), Always), ["2"]);
    WriteDeleteOperation(c, OnUsers(DeleteAction("User"), Always), ["2"]);
  }

  /** Deleting a list of ids removes every one of them (`delete operation from list`). */
  lemma DeleteOperationFromList()
    ensures var (c, info) := UnderUser1([User("2"), User("3")], map[]);
      var r := Write(c, map[], NewUsers(OnUsers(DeleteAction("User"), Always), ["2", "3"]), false);
      && r.Ok?
      && Members(r.value.cache, info) == []
      && User("2") !in r.value.cache.records && User("3") !in r.value.cache.records
  {
    var (c, info) := UnderUser1([User("2"), User("3")], map[]);
    UnderUser1Facts([User("2"), User("3")], map[]);
    assert EntityIds("User", ["2", "3"]) == [User("2"), User("3")];
    EmptiedBy(c, OnUsers(DeleteAction("User"), Always), ["2", "3"]);
    WriteDeleteOperation(c, OnUsers(DeleteAction("User"), Always), ["2", "3"]);
  }

  /** The `viewer` write of the layer test: user 1 linked from the root with
      `id` and `firstName` John. */
  function Viewer(): Cache {
    var s := WriteLink(map[], Root, "viewer", User("1"));
    var s := WriteField(s, User("1"), KeyField, Str("1"), Replace, false);
    var s := WriteField(s, User("1"), "firstName", Str("John"), Replace, false);
    Cache(s, EmptyStack, map[], {})
  }

  /** A layer writing `firstName: Alex` on user 1 shows through `viewer`;
      deleting it by its handle brings John back, and `id` is untouched. */
  lemma LayerOverridesViewer()
    ensures var (added, lid) := AddLayer(Viewer(), User("1"), map["firstName" := Str("Alex")]);
      && ReadThrough(added.cache, Root, "viewer", "firstName") == Some(Str("Alex"))
      && ReadThrough(added.cache, Root, "viewer", KeyField) == Some(Str("1"))
      && ReadThrough(DeleteLayer(added.cache, lid).cache, Root, "viewer", "firstName") == Some(Str("John"))
      && ReadThrough(DeleteLayer(added.cache, lid).cache, Root, "viewer", KeyField) == Some(Str("1"))
  {
    var c := Viewer();
    var data := map["firstName" := Str("Alex")];
    assert WellFormed(c);
    assert LinkOf(c.records, Root, "viewer") == Some(One(User("1")));
    assert Read(c, User("1"), "firstName") == Some(Str("John"));
    assert Read(c, User("1"), KeyField) == Some(Str("1"));
    DeleteLayerRestores(c, User("1"), data);
  }

  /** An applied `append` on a connection holding `[a, m]`, whose batch
      brings `m` back, keeps one entry per member: the incoming edge replaces
      the stored one and the connection still holds `[a, m]`. */
  lemma AppendAgain(prior: seq<Id>, conn: Id, a: Id, m: Id)
    requires MembersOf(prior, true) == [a, m] && a != m
    ensures MembersOf(CombineLinks(prior, EdgesFor(conn, [m]), Append, true, true), true) == [a, m]
  {
    var incoming := EdgesFor(conn, [m]);
    CombineMembers(prior, incoming, Append, true);
    KeptSingle(prior, incoming, true, m);
    UnlinkMembers(prior, m, true);
    assert Without([a, m], m) == [a] + Without([m], m);
  }

  /** Running scalars and then an applied `append` of `nodes` on connection
      `conn` combines the connection as an applied update. */
  lemma UpdateRun(c: Cache, scalars: seq<FieldWrite>, conn: Id, nodes: seq<Id>)
    requires forall i :: 0 <= i < |scalars| ==> scalars[i].SetScalar?
    ensures var r := Run(c, map[], scalars + [SetConnection(conn, nodes, Append)], true);
      && r.Ok?
      && LinksAt(r.value.records, conn, EdgesKey)
         == CombineLinks(LinksAt(c.records, conn, EdgesKey), EdgesFor(conn, nodes), Append, true, true)
  {
    var last := SetConnection(conn, nodes, Append);
    RunConcat(c, scalars, last, true);
    var mid := Run(c, map[], scalars, true).value;
    assert LinksAt(mid.records, conn, EdgesKey) == LinksAt(c.records, conn, EdgesKey);
  }

  /** The same batch through `cache.write`: a dependency on a scalar the
      batch replaces with a new value, with no later write touching it, is
      notified. */
  lemma UpdateBatch(c: Cache, scalars: seq<FieldWrite>, conn: Id, nodes: seq<Id>, j: nat, d: Dep)
    requires forall i :: 0 <= i < |scalars| ==> scalars[i].SetScalar?
    requires j < |scalars| && scalars[j].update == Replace
    requires !TouchedBy(c.lists, map[], (scalars + [SetConnection(conn, nodes, Append)])[j + 1..], Slot(scalars[j].record, scalars[j].key))
    requires d in c.deps && d.record == scalars[j].record && d.key == scalars[j].key
    requires c.stack.layers == [] && FieldOf(c.records, d.record, d.key) != Some(scalars[j].value)
    ensures var r := Write(c, map[], scalars + [SetConnection(conn, nodes, Append)], true);
      && r.Ok?
      && LinksAt(r.value.cache.records, conn, EdgesKey)
         == CombineLinks(LinksAt(c.records, conn, EdgesKey), EdgesFor(conn, nodes), Append, true, true)
      && d.sub in r.value.notified
  {
    var ws := scalars + [SetConnection(conn, nodes, Append)];
    UpdateRun(c, scalars, conn, nodes);
    assert ws[j] == scalars[j];
    RunLastWrite(c, map[], ws, true, j);
    var r := Run(c, map[], ws, true).value;
    var slot := Slot(d.record, d.key);
    assert Observed(c, slot) != Observed(r, slot);
  }

  /** The `applyUpdates` write of the test: user 1 renamed John, mary's
      fields, and mary appended to user 1's friends connection. */
  function MaryAgain(): seq<FieldWrite> {
    [ SetScalar(User("1"), KeyField, Str("1"), Replace),
      SetScalar(User("1"), "firstName", Str("John"), Replace),
      SetScalar(User("3"), "__typename", Str("User"), Replace),
      SetScalar(User("3"), KeyField, Str("3"), Replace),
      SetScalar(User("3"), "firstName", Str("mary"), Replace) ]
  }

  /** The edges of user 1's friends after `list.append` linked mary: jane's
      edge from the seeding write, then a new edge for mary at index 1. */
  function JaneMaryEdges(): seq<Id> {
    [Edge(FriendsConnection(), 0, User("2")), Edge(FriendsConnection(), 1, User("3"))]
  }

  /** `list.append` on a registered connection, with data that identifies
      a member and carries no `__typename`: a new edge for the member goes at
      the tail, the member's record carries the list's type, and the
      invariant holds. */
  lemma ConnectionAppend(c: Cache, k: ListKey, data: map<string, Value>, x: Id)
    requires WellFormed(c) && k in c.lists && c.lists[k].connection
    requires Identify(c.lists[k].typename, data) == Some(x) && TypenameField !in data
    ensures var info, prior := c.lists[k], LinksAt(c.records, c.lists[k].record, c.lists[k].key);
      var a := ListAppend(c, ListHandle(k.name, k.parent), data);
      && a.Ok?
      && a.value.cache.stack == c.stack
      && a.value.cache.lists == c.lists
      && WellFormed(a.value.cache)
      && LinksAt(a.value.cache.records, info.record, info.key) == prior + [Edge(info.record, |prior|, x)]
      && FieldOf(a.value.cache.records, x, TypenameField) == Some(Str(info.typename))
  {
  }

  /** After `list.append` linked mary into the connection: the connection
      holds jane's and mary's edges, mary's record carries the list's type as
      her `__typename`, and the cache still satisfies its invariant. */
  lemma AppendedMary()
    ensures var c := Seeded([User("2")], true, map[], None);
      var a := ListAppend(c, ListHandle(AllUsers, None), Mary());
      && a.Ok?
      && a.value.cache.stack.layers == []
      && a.value.cache.lists == c.lists
      && WellFormed(a.value.cache)
      && LinksAt(a.value.cache.records, FriendsConnection(), EdgesKey) == JaneMaryEdges()
      && FieldOf(a.value.cache.records, User("3"), TypenameField) == Some(Str("User"))
  {
    var c := Seeded([User("2")], true, map[], None);
    SeededFacts([User("2")], true, map[], None);
    assert Identify("User", Mary()) == Some(User("3"));
    assert LinksAt(c.records, FriendsConnection(), EdgesKey) == [Edge(FriendsConnection(), 0, User("2"))];
    ConnectionAppend(c, ListKey(AllUsers, None), Mary(), User("3"));
  }

  /** Of jane's and mary's edges, a batch bringing mary back keeps jane's. */
  lemma MaryEdgeKept()
    ensures Kept(JaneMaryEdges(), [Edge(FriendsConnection(), 0, User("3"))], true) == [Edge(FriendsConnection(), 0, User("2"))]
  {
    KeptSingle(JaneMaryEdges(), [Edge(FriendsConnection(), 0, User("3"))], true, User("3"));
    assert JaneMaryEdges()[1..][1..] == [];
  }

  /** Running the update batch on a connection holding jane's and mary's
      edges: the applied `append` replaces mary's edge with the batch's own. */
  lemma MaryEdgeReplaced(c: Cache)
    requires LinksAt(c.records, FriendsConnection(), EdgesKey) == JaneMaryEdges()
    ensures var r := Run(c, map[], MaryAgain() + [SetConnection(FriendsConnection(), [User("3")], Append)], true);
      && r.Ok?
      && LinksAt(r.value.records, FriendsConnection(), EdgesKey)
         == [Edge(FriendsConnection(), 0, User("2")), Edge(FriendsConnection(), 0, User("3"))]
  {
    var conn := FriendsConnection();
    UpdateRun(c, MaryAgain(), conn, [User("3")]);
    assert EdgesFor(conn, [User("3")]) == [Edge(conn, 0, User("3"))];
    MaryEdgeKept();
  }

  /** After the update batch, mary's `__typename` reads `User`. */
  lemma MaryTyped(c: Cache)
    requires Run(c, map[], MaryAgain() + [SetConnection(FriendsConnection(), [User("3")], Append)], true).Ok?
    ensures FieldOf(Run(c, map[], MaryAgain() + [SetConnection(FriendsConnection(), [User("3")], Append)], true).value.records,
                    User("3"), TypenameField) == Some(Str("User"))
  {
    var ws := MaryAgain() + [SetConnection(FriendsConnection(), [User("3")], Append)];
    TypenameLastWritten(c.lists);
    assert ws[2] == SetScalar(User("3"), TypenameField, Str("User"), Replace);
    RunLastWrite(c, map[], ws, true, 2);
  }

  /** The update batch through `cache.write` on a well-formed cache whose
      connection holds jane's and mary's edges: the connection's link
      changes while its members stay jane, mary, so every subscriber of the
      list is notified; mary's `__typename` reads `User`. */
  lemma UpdateAfterAppend(c: Cache, k: ListKey)
    requires WellFormed(c)
    requires k in c.lists && c.lists[k].record == FriendsConnection() && c.lists[k].key == EdgesKey && c.lists[k].connection
    requires LinksAt(c.records, FriendsConnection(), EdgesKey) == JaneMaryEdges()
    ensures var r := Write(c, map[], MaryAgain() + [SetConnection(FriendsConnection(), [User("3")], Append)], true);
      && r.Ok?
      && Members(r.value.cache, c.lists[k]) == [User("2"), User("3")]
      && c.lists[k].subscribers <= r.value.notified
      && FieldOf(r.value.cache.records, User("3"), TypenameField) == Some(Str("User"))
  {
    var conn := FriendsConnection();
    var ws := MaryAgain() + [SetConnection(conn, [User("3")], Append)];
    MaryEdgeReplaced(c);
    MaryTyped(c);
    var r := Run(c, map[], ws, true).value;
    assert LinksAt(r.records, conn, EdgesKey) != LinksAt(c.records, conn, EdgesKey);
    assert LinkOf(r.records, conn, EdgesKey) != LinkOf(c.records, conn, EdgesKey);
  }

  /** No write after the third of the batch touches mary's `__typename`. */
  lemma TypenameLastWritten(lists: map<ListKey, ListInfo>)
    ensures !TouchedBy(lists, map[], (MaryAgain() + [SetConnection(FriendsConnection(), [User("3")], Append)])[3..], Slot(User("3"), "__typename"))
  {
    var slot := Slot(User("3"), "__typename");
    var tail := (MaryAgain() + [SetConnection(FriendsConnection(), [User("3")], Append)])[3..];
    assert tail[2..] == [SetConnection(FriendsConnection(), [User("3")], Append)];
    assert !TouchedBy(lists, map[], tail[2..], slot);
    assert tail[1..][1..] == tail[2..];
    assert !TouchedBy(lists, map[], tail[1..], slot);
  }

  /** An applied `append` update carrying mary, after `list.append` already
      linked her, keeps one edge for her: the connection stays jane, mary,
      and the subscriber is notified. */
  lemma AppendUpdateAfterHandle()
    ensures var c := Seeded([User("2")], true, map[], None);
      var a := ListAppend(c, ListHandle(AllUsers, None), Mary());
      && a.Ok?
      && var r := Write(a.value.cache, map[], MaryAgain() + [SetConnection(FriendsConnection(), [User("3")], Append)], true);
         && r.Ok?
         && Members(r.value.cache, c.lists[ListKey(AllUsers, None)]) == [User("2"), User("3")]
         && 0 in r.value.notified
  {
    var c := Seeded([User("2")], true, map[], None);
    SeededFacts([User("2")], true, map[], None);
    AppendedMary();
    UpdateAfterAppend(ListAppend(c, ListHandle(AllUsers, None), Mary()).value.cache, ListKey(AllUsers, None));
  }
}

=== FILE: wrappers.dfy ===
/** Failure-compatible wrappers shared by the cache model. */
module Wrappers {

  /** An optional value: a missing record, field, key or parent. */
  datatype Option<+T> = None | Some(value: T)

  /** A cache call either succeeds with a value or reports a contract
      violation of its caller (an unknown list, an unbound variable). */
  datatype Result<+T, +E> = Ok(value: T) | Err(error: E) {

    predicate IsFailure() {
      Err?
    }

    function PropagateFailure<U>(): Result<U, E>
      requires Err?
    {
      Err(error)
    }

    function Extract(): T
      requires Ok?
    {
      value
    }
  }
}

=== FILE: writes.dfy ===
/** The write path for array-valued and linked fields: the `update` mode of
    a field and the `applyUpdates` flag of a write. */
module Writes {
  import opened Wrappers
  import opened Records
  import opened Lists

  /** A field's `update`: absent (overwrite), `append` or `prepend`. */
  datatype UpdateMode = Replace | Append | Prepend

  /** The stored value after writing `incoming` over `prior`. The mode takes
      effect only when the write applies updates and both sides are arrays;
      otherwise the incoming value overwrites. */
  function CombineValues(prior: Option<Value>, incoming: Value, mode: UpdateMode, applyUpdates: bool): Value {
    if applyUpdates && prior.Some? && prior.value.Array? && incoming.Array? then
      match mode
      case Replace => incoming
      case Append => Array(prior.value.items + incoming.items)
      case Prepend => Array(incoming.items + prior.value.items)
    else incoming
  }

  /** The entries of a linked list after writing `incoming` over `prior`. With
      updates applied, the incoming entries go after (append) or before
      (prepend) the stored ones, and a stored entry whose member comes in
      again is dropped in favour of the incoming one; otherwise the incoming
      list replaces the stored one outright. */
  function CombineLinks(prior: seq<Id>, incoming: seq<Id>, mode: UpdateMode, applyUpdates: bool, connection: bool): seq<Id> {
    if !applyUpdates then incoming
    else
      match mode
      case Replace => incoming
      case Append => Kept(prior, incoming, connection) + incoming
      case Prepend => incoming + Kept(prior, incoming, connection)
  }

  /** Without `applyUpdates`, or without an update mode, a linked list is
      replaced by the incoming one. */
  lemma CombineOverwrites(prior: seq<Id>, incoming: seq<Id>, mode: UpdateMode, applyUpdates: bool, connection: bool)
    requires !applyUpdates || mode == Replace
    ensures CombineLinks(prior, incoming, mode, applyUpdates, connection) == incoming
  {
  }

  /** An applied `append` ends with the whole incoming batch, in order; an
      applied `prepend` starts with it. */
  lemma CombineKeepsIncoming(prior: seq<Id>, incoming: seq<Id>, mode: UpdateMode, connection: bool)
    requires mode != Replace
    ensures var r := CombineLinks(prior, incoming, mode, true, connection);
      && |incoming| <= |r|
      && (mode == Append ==> r[|r| - |incoming|..] == incoming)
      && (mode == Prepend ==> r[..|incoming|] == incoming)
  {
    var k := Kept(prior, incoming, connection);
    if mode == Append {
      assert (k + incoming)[|k|..] == incoming;
    } else {
      assert (incoming + k)[..|incoming|] == incoming;
    }
  }

  /** The members after an applied update: the kept stored members, then
      (append) or after (prepend) the incoming ones. */
  lemma CombineMembers(prior: seq<Id>, incoming: seq<Id>, mode: UpdateMode, connection: bool)
    requires mode != Replace
    ensures var mk, mi := MembersOf(Kept(prior, incoming, connection), connection), MembersOf(incoming, connection);
      MembersOf(CombineLinks(prior, incoming, mode, true, connection), connection) == if mode == Append then mk + mi else mi + mk
  {
    var k := Kept(prior, incoming, connection);
    if mode == Append {
      MembersConcat(k, incoming, connection);
    } else {
      MembersConcat(incoming, k, connection);
    }
  }

  /** After an applied update a record is a member iff it was stored or came in. */
  lemma CombineMembership(prior: seq<Id>, incoming: seq<Id>, mode: UpdateMode, connection: bool, y: Id)
    requires mode != Replace
    ensures y in MembersOf(CombineLinks(prior, incoming, mode, true, connection), connection)
        <==> y in MembersOf(prior, connection) || y in MembersOf(incoming, connection)
  {
    CombineMembers(prior, incoming, mode, connection);
    KeptMembers(prior, incoming, connection, y);
  }

  /** An applied update duplicates nothing: a member that comes in occurs as
      often as in the batch, and any other stored member as often as before. */
  lemma CombineNoDuplicates(prior: seq<Id>, incoming: seq<Id>, mode: UpdateMode, connection: bool, y: Id)
    requires mode != Replace
    ensures var r := MembersOf(CombineLinks(prior, incoming, mode, true, connection), connection);
      && (y in MembersOf(incoming, connection) ==> multiset(r)[y] == multiset(MembersOf(incoming, connection))[y])
      && (y !in MembersOf(incoming, connection) ==> multiset(r)[y] == multiset(MembersOf(prior, connection))[y])
  {
    CombineMembers(prior, incoming, mode, connection);
    KeptCounts(prior, incoming, connection, y);
  }

  /** When no stored member comes in again, an applied update is exactly the
      concatenation of the two batches. */
  lemma CombineAllNew(prior: seq<Id>, incoming: seq<Id>, mode: UpdateMode, connection: bool)
    requires mode != Replace
    requires forall i :: 0 <= i < |prior| ==> MemberOf(prior[i], connection) !in MembersOf(incoming, connection)
    ensures CombineLinks(prior, incoming, mode, true, connection) == if mode == Append then prior + incoming else incoming + prior
  {
    KeptAllNew(prior, incoming, connection);
  }

  /** Writes a scalar or scalar-array field. */
  function WriteField(s: Store, id: Id, key: string, v: Value, mode: UpdateMode, applyUpdates: bool): (r: Store)
    ensures var prior := FieldOf(s, id, key);
      if applyUpdates && mode != Replace && prior.Some? && prior.value.Array? && v.Array? then
        FieldOf(r, id, key) == Some(Array(if mode == Append then prior.value.items + v.items else v.items + prior.value.items))
      else
        FieldOf(r, id, key) == Some(v)
    ensures forall i, k :: (i != id || k != key) ==> FieldOf(r, i, k) == FieldOf(s, i, k)
    ensures forall i, k :: LinkOf(r, i, k) == LinkOf(s, i, k)
  {
    SetField(s, id, key, CombineValues(FieldOf(s, id, key), v, mode, applyUpdates))
  }

  /** Writes a single link. */
  function WriteLink(s: Store, id: Id, key: string, target: Id): (r: Store)
    ensures LinksAt(r, id, key) == [target]
    ensures forall i, k :: (i != id || k != key) ==> LinkOf(r, i, k) == LinkOf(s, i, k)
    ensures forall i, k :: FieldOf(r, i, k) == FieldOf(s, i, k)
  {
    SetLink(s, id, key, One(target))
  }

  /** Writes a plain linked list of records. */
  function WriteList(s: Store, id: Id, key: string, targets: seq<Id>, mode: UpdateMode, applyUpdates: bool): (r: Store)
    ensures LinksAt(r, id, key) == CombineLinks(LinksAt(s, id, key), targets, mode, applyUpdates, false)
    ensures forall i, k :: (i != id || k != key) ==> LinkOf(r, i, k) == LinkOf(s, i, k)
    ensures forall i, k :: FieldOf(r, i, k) == FieldOf(s, i, k)
  {
    SetLink(s, id, key, Many(CombineLinks(LinksAt(s, id, key), targets, mode, applyUpdates, false)))
  }

  /** The edges a connection write creates: edge `i` wraps the i-th node. */
  function EdgesFor(connection: Id, nodes: seq<Id>): (r: seq<Id>)
    ensures MembersOf(r, true) == nodes
    ensures forall i :: 0 <= i < |r| ==> r[i].Edge? && r[i].connection == connection
  {
    seq(|nodes|, i requires 0 <= i < |nodes| => Edge(connection, i, nodes[i]))
  }

  /** The record of an edge: just its link to the node it wraps. */
  function EdgeRecord(e: Id): Record {
    Record(map[], map[NodeKey := One(MemberOf(e, true))])
  }

  /** Creates a record for each listed edge not yet stored. */
  function AddEdges(s: Store, entries: seq<Id>): (r: Store)
    ensures r.Keys == s.Keys + (set e | e in entries && e.Edge?)
    ensures forall i :: i in s ==> r[i] == s[i]
  {
    s + map e | e in entries && e.Edge? && e !in s :: EdgeRecord(e)
  }

  /** Writes the edges of a connection record: each node is wrapped in an
      edge, and the edge list is combined with the stored one, members
      compared by node. */
  function WriteConnection(s: Store, connection: Id, nodes: seq<Id>, mode: UpdateMode, applyUpdates: bool): (r: Store)
    ensures LinksAt(r, connection, EdgesKey)
         == CombineLinks(LinksAt(s, connection, EdgesKey), EdgesFor(connection, nodes), mode, applyUpdates, true)
    ensures forall e :: e in LinksAt(r, connection, EdgesKey) && e.Edge? ==> e in r
    ensures forall i :: i in s ==> i in r
    ensures forall i, k :: i in s && (i != connection || k != EdgesKey) ==> LinkOf(r, i, k) == LinkOf(s, i, k)
    ensures forall i, k :: (i != connection || k != EdgesKey) && !(i.Edge? && k == NodeKey) ==> LinkOf(r, i, k) == LinkOf(s, i, k)
    ensures forall i, k :: FieldOf(r, i, k) == FieldOf(s, i, k)
  {
    var entries := CombineLinks(LinksAt(s, connection, EdgesKey), EdgesFor(connection, nodes), mode, applyUpdates, true);
    SetLink(AddEdges(s, entries), connection, EdgesKey, Many(entries))
  }

  /** Without `applyUpdates` the connection's members become exactly the written nodes. */
  lemma ConnectionOverwrites(s: Store, connection: Id, nodes: seq<Id>, mode: UpdateMode)
    ensures MembersOf(LinksAt(WriteConnection(s, connection, nodes, mode, false), connection, EdgesKey), true) == nodes
  {
  }
}
